=== FILE: README.md ===
# StreamCut capture manager, modelled in Dafny

StreamCut connects to an RTMP stream and saves about one frame per second.
Frames go into a capture folder named after the minute it was opened, and a
new folder starts every 60 seconds. Progress and errors are reported through
three callbacks: new folder, frame captured, and error. The manager keeps one
stream at a time and keeps a history of the URLs it was given.

This project models the sequential core of that manager as pure Dafny
functions, and proves properties of them:

- `RtmpUrl`: both RTMP URL checks. The permissive one is used before a
  capture starts. The strict one is used by the HTTP front end. Each is a
  hand-written scanner, proved equal to a grammar by decomposition. The
  grammar includes Python's `$`, which also matches before one final newline.
- `Names`: the `strftime` formats of folders, frames and history stamps.
  For these formats, string order is time order.
- `History`: adding a URL, removing one, and the listing sorted by last use.
- `Listing`: `get_folders`, the manager's `get_images`, and the `get_images`
  HTTP route, with the directory listing given as an input.
- `CaptureLoop`: one iteration of the capture thread as a step function over
  an observation of the camera, disk and clock. It emits the callbacks and
  sleeps as events. `Run` folds the step over a sequence of observations.
- `Session`: `start_capture` and `stop_capture_stream` as transitions of the
  one-stream slot, plus a replay of start/stop traces.
- `Text`, `Sorting`, `Wrappers`: Python string comparison, suffixes and
  lower-casing, a stable `sorted` by string key, and `Option`/`Result`.

The model follows the code as written:

- A failed read only increments the counter and logs. It does not call
  `on_error` and does not sleep.
- A failed reconnect raises inside the loop body. The body's own handler
  catches it, calls `on_error` once, sleeps one second, and the loop goes on.
  The counter stays at or above 5, so each later failed read tries to
  reconnect again, until a folder rotation or a successful read resets the
  counter. The only way out of the loop is the stop flag.
- A successful read resets the counter even when the frame is empty. An
  empty frame is dropped without a sleep.
- A failed `imwrite` is only logged. No error callback fires.

## Model

| member | source | states |
|---|---|---|
| `RtmpUrl.IsValidRtmpUrl` | stream_manager.py:256-259 | the scanner accepts a string exactly when it is `rtmp://`, a non-empty host, an optional `:digits`, and an optional path, optionally followed by one newline (`MatchesPattern`) |
| `RtmpUrl.RecogniseBodyCorrect` | stream_manager.py:258 | scanning left to right with longest runs accepts exactly the strings that split into scheme, host, port part and path part |
| `RtmpUrl.StrictImpliesPermissive` | app.py:82 | every URL the front end's strict check accepts is also accepted by the manager's permissive check |
| `RtmpUrl.TrailingNewlineIgnored` | app.py:80-83 | for a string without newlines, adding one final `\n` changes neither check's answer |
| `RtmpUrl.PermissiveAccepts` | stream_manager.py:258 | `rtmp://h`, `rtmp://h:1935` and `rtmp://h/` pass the manager's check: port and path are both optional, and the path may be a bare `/` |
| `RtmpUrl.PermissiveRejects` | stream_manager.py:258 | `rtmp://h:`, `rtmp://h:ab/x`, `http://h/x` and the empty string fail the manager's check |
| `RtmpUrl.StrictAcceptsPath` | app.py:82 | `rtmp://h/live` passes the front end's check |
| `RtmpUrl.StrictAcceptsPortAndPath` | app.py:82 | `rtmp://h:1/x` passes the front end's check |
| `RtmpUrl.StrictRejectsMissingPath` | app.py:82 | `rtmp://h`, `rtmp://h:1935`, `rtmp://h/` and the empty string fail the front end's check, which needs `/` and at least one more character |
| `RtmpUrl.StrictRejectsBadPort` | app.py:82 | `rtmp://h:/x` and `rtmp://h:ab/x` fail the front end's check |
| `Names.FolderName` | stream_manager.py:80 | a folder name is 13 characters: eight digits, `_`, four digits |
| `Names.FrameName` | stream_manager.py:186-187 | a frame name is 25 characters: `frame_`, eight digits, `_`, six digits, `.jpg` |
| `Names.HistoryStamp` | stream_manager.py:51 | a stamp is 19 characters: digit fields of widths 4, 2, 2, 2, 2, 2 separated by `-`, `-`, space, `:`, `:` |
| `Names.DigitsValue` | stream_manager.py:51 | a zero-padded field read back as a decimal number gives the number written, whenever it fits the width |
| `Names.FolderNameFields` | stream_manager.py:80 | the digit fields of a folder name read back as the year, month, day, hour and minute it was made from |
| `Names.FrameNameFields` | stream_manager.py:186-187 | the digit fields of a frame name read back as the year, month, day, hour, minute and second of capture |
| `Names.HistoryStampFields` | stream_manager.py:51 | the digit fields of a `last_used` stamp read back as the date and time it was made from |
| `Names.FolderNameOrder` | stream_manager.py:80 | for valid times, folder names compare as strings the way their minutes compare in time, and two names are equal exactly when the minutes are |
| `Names.FrameNameOrder` | stream_manager.py:186-187 | frame file names compare as strings the way their capture seconds compare in time, and are equal exactly for the same second |
| `Names.HistoryStampOrder` | stream_manager.py:51 | `last_used` stamps compare as strings the way the times compare, and are equal exactly for the same second |
| `Names.DigitsOrder` | stream_manager.py:186 | zero-padded fixed-width digit fields compare as strings the way the numbers compare, and are equal exactly when the numbers are |
| `History.FindUrl` | stream_manager.py:48-49 | the loop stops at the first entry whose URL matches |
| `History.AddToHistory` | stream_manager.py:44-61 | a listed URL updates `last_used` on its first entry only, keeping length and every other entry; a new URL is appended as `{url, name=url, last_used}` |
| `History.AddRecordsUse` | stream_manager.py:48-60 | after an add, the first entry for the URL carries the new stamp |
| `History.AddTwice` | stream_manager.py:44-61 | adding a URL twice equals adding it once with the later stamp, so the length is that of a single add |
| `History.RemoveFromHistory` | stream_manager.py:65-71 | no entry for the URL remains, and the list does not grow |
| `History.RemoveKeepsOthers` | stream_manager.py:68 | an entry is kept exactly when it was in the history and its URL differs |
| `History.RemoveAppend` | stream_manager.py:68 | removal distributes over concatenation, so the kept entries stay in their order |
| `History.RemoveUndoesNewAdd` | stream_manager.py:56-68 | removing a URL just added for the first time restores the list |
| `History.RemoveIdempotent` | stream_manager.py:68 | removing the same URL twice equals removing it once |
| `History.GetHistory` | stream_manager.py:73-75 | the listing is a permutation of the history, ordered by `last_used` from newest to oldest |
| `History.GetHistoryStable` | stream_manager.py:75 | entries with equal `last_used` keep their stored order |
| `History.NewestAddListedFirst` | stream_manager.py:44-75 | a URL added with a stamp later than every listed one heads the listing |
| `Sorting.SortByKey` | stream_manager.py:251 | `sorted` returns a permutation of its input |
| `Sorting.SortByKeySorted` | stream_manager.py:251 | the result of `sorted` is in key order, ascending, or descending with `reverse=True` |
| `Sorting.SortByKeyStable` | stream_manager.py:75 | `sorted` keeps the relative order of equal keys, also with `reverse=True` |
| `Listing.DirNames` | stream_manager.py:234-235 | each name occurs as often as there are directory entries with that name, and plain files do not occur |
| `Listing.GetFolders` | stream_manager.py:229-239 | a missing or unreadable capture directory lists nothing; otherwise the sub-directory names, in descending order |
| `Listing.ImageNames` | stream_manager.py:249-250 | each name occurs as often as in the listing if it passes the extension test, and not at all otherwise |
| `Listing.GetImages` | stream_manager.py:241-254 | a missing folder lists nothing; otherwise the names whose lower-cased form ends in `.jpg`, `.jpeg` or `.png`, with their multiplicity, ascending |
| `Listing.GetImagesRoute` | app.py:152-161 | a missing folder answers not-found; otherwise the names ending case-sensitively in `.jpg`, `.jpeg` or `.png`, ascending |
| `Listing.CaseSensitiveImpliesFolded` | stream_manager.py:250 | a name that passes the case-sensitive test also passes the lower-cased one |
| `Listing.RouteListsFewerImages` | app.py:159-160 | the route never lists an image that the manager's listing leaves out |
| `Listing.UpperCaseExtensionExample` | app.py:160 | `A.JPG` is listed by the manager and dropped by the route |
| `Listing.FrameNamesAreImages` | stream_manager.py:186-187 | every frame file name passes both image tests |
| `Listing.FoldersNewestFirst` | stream_manager.py:236 | a capture folder from a later minute is listed before one from an earlier minute |
| `Listing.FramesInCaptureOrder` | stream_manager.py:251 | frames are listed in the order of the seconds they were captured |
| `CaptureLoop.ReadPhase` | stream_manager.py:161-199 | the read and what follows it leave the folder, the rotation clock and the stop state alone |
| `CaptureLoop.Step` | stream_manager.py:150-205 | an iteration ends the loop exactly when the stop flag is seen at its top, and then does nothing else; a saved frame is named after the frame time and lies in the current folder |
| `CaptureLoop.Run` | stream_manager.py:150 | a run has stopped exactly when some iteration saw the stop flag; every saved frame is named after the time of some iteration |
| `CaptureLoop.RunAppend` | stream_manager.py:150-205 | running two stretches of iterations in turn equals running them together: the second starts from the first's state, and its events follow the first's |
| `CaptureLoop.RotationBeforeRead` | stream_manager.py:152-159 | when 60 seconds have passed, the new folder becomes current and is announced first, the rotation clock becomes `now`, and the counter restarts, so no reconnect follows in that iteration; the read still follows in the same pass, as a pass without rotation from the rotated state |
| `CaptureLoop.NoRotationBeforeInterval` | stream_manager.py:153-154 | before 60 seconds have passed, the folder and the rotation clock stay and no folder is announced |
| `CaptureLoop.FolderFailureRetried` | stream_manager.py:201-205 | a folder that cannot be created is reported once and followed by a sleep; nothing else changes, so the next iteration retries it |
| `CaptureLoop.FailedReadIsSilent` | stream_manager.py:164-175 | below the threshold a failed read increments the counter, with no error callback and no sleep |
| `CaptureLoop.ReconnectAtThreshold` | stream_manager.py:168-174 | at the fifth failure the stream is reopened; success resets the counter silently, failure reports once, sleeps, and keeps the loop running with the counter at the threshold or above |
| `CaptureLoop.FailedReconnectRetried` | stream_manager.py:168-173 | after a failed reconnect, the next failed read reconnects again when no folder rotation falls in between |
| `CaptureLoop.SuccessfulRead` | stream_manager.py:177-199 | a successful read resets the counter; an empty frame emits nothing; a good frame is announced only if written, then one sleep follows |
| `CaptureLoop.StoppedStaysStopped` | stream_manager.py:150 | once the loop has ended, later iterations emit nothing and change nothing |
| `CaptureLoop.ErrorsBelowThreshold` | stream_manager.py:164-174 | while every reconnect succeeds, the counter stays below 5 at the top of each iteration |
| `CaptureLoop.FourFailuresThenFrame` | stream_manager.py:164-199 | four failed reads and then a written frame give exactly one saved frame and one sleep, with no error and the counter back at zero |
| `CaptureLoop.FiveFailuresFailedReopen` | stream_manager.py:164-205 | five failed reads and a failed reopen give exactly one error and one sleep; the loop is still running with the counter at 5 |
| `Session.StartCapture` | stream_manager.py:89-141 | a start succeeds exactly when no stream is held, the URL passes the permissive check, the folder is made and the stream opens; it holds the stream only then, with the stop flag cleared, the first folder announced and the URL recorded in the history; a folder that cannot be made changes nothing and emits nothing; a stream that will not open changes only the history, leaving the stop flag as it was |
| `Session.StopCapture` | stream_manager.py:217-224 | a stop raises the flag, drops the stream, and keeps the history |
| `Session.Iterate` | stream_manager.py:149-215 | the loop sees the manager's stop flag at the top of an iteration; the iteration that ends the loop frees the slot, every other iteration leaves the manager unchanged, and a loop that has already ended changes nothing |
| `Session.Serve` | stream_manager.py:149-215 | the loop's passes in sequence keep the history and the stop flag, and the loop has ended exactly when it had already ended or saw a stop; with `ServeIsRun`, its events and loop state are those of the capture loop |
| `Session.ServeIsRun` | stream_manager.py:149-215 | the passes the manager sees are exactly the capture loop's steps run in order, reading the manager's stop flag at the top of each: same events in the same order, same final loop state |
| `Session.ServeKeepsSlot` | stream_manager.py:150-214 | while no stop is requested, any number of passes leaves the manager unchanged and the loop running |
| `Session.SessionKeepsSlot` | stream_manager.py:91-126 | after a successful start, the stream stays held through any stop-free passes of its loop, and every further start is refused |
| `Session.StartWhileHeld` | stream_manager.py:91-93 | a start while a stream is held raises and changes nothing |
| `Session.InvalidUrlNoSideEffects` | stream_manager.py:95-98 | an invalid URL raises before any folder, callback or history change |
| `Session.OpenFailureAfterSideEffects` | stream_manager.py:100-123 | a stream that will not open fails after the folder was made and announced and the URL recorded, and leaves the slot free |
| `Session.StopIdempotent` | stream_manager.py:217-224 | stopping twice equals stopping once, and a stop with no stream only raises the flag |
| `Session.StartAfterStop` | stream_manager.py:91-126 | after a stop the next start passes the slot check, and a successful one clears the stop flag |
| `Session.StopEndsLoop` | stream_manager.py:150-214 | without a stop the loop keeps running through any failure; after a stop its next iteration ends it with no events and no stream held |
| `Session.FirstEventIsNewFolder` | stream_manager.py:101-103 | a successful session's first event announces its first folder, before the loop saves any frame |
| `Session.Replay` | stream_manager.py:91-125 | over any trace of starts and stops, successful starts plus an initially held stream equal stops that freed a stream plus a finally held stream |
| `Session.NoSecondSession` | stream_manager.py:91-93 | while a stream is held and no stop comes, every start fails and the stream stays held |

## Left out

- OpenCV is not modelled: opening, the buffer and timeout options, `read`, `imwrite`, `release`, and the decoder environment variable (stream_manager.py:108-120). Each call's outcome is an input: `StartEnv.streamOpened` and the `Observation` fields.
- The filesystem is not modelled. `makedirs` is reduced to a success flag. `listdir`, `exists` and `isdir` become input listings. Loading and saving the history as JSON (stream_manager.py:24-42) is left out, so `add_to_history` and `remove_from_history` cannot fail in the model.
- Clocks and sleeping: `time.time()` is a whole number of seconds, `datetime.now()` is a `DateTime` input, and `time.sleep(1)` is a `Sleep(1)` event.
- Threads, the `Event` object, and races between `stop_capture_stream` and a running loop are concurrency and are left out. Examples are a read on a stream another thread just released, and an old loop missing a stop flag that a new start cleared. The loop and the slot are modelled as sequential steps.
- Callbacks are assumed not to raise, and events are recorded even when a callback is `None`. The outer handler (stream_manager.py:207-210) is only reachable when a callback or the logger raises, so it is not modelled.
- `stop_capture_stream` re-raises a failing `release` (stream_manager.py:225-227); foreign-call failures are not modelled.
- A failure to start the capture thread (stream_manager.py:129-132) is not modelled.
- Flask routes other than `get_images` are left out, as are SocketIO, the log handlers and image metadata (`get_image_info`). The `start_capture` route (app.py:102-144) is also left out. The route listing of `index` (app.py:93-95) repeats `get_folders` and has no separate model.
- Log messages are left out, and error events carry only an error kind.
- `Names.Valid`: the order lemmas assume years 1000-9999. Below 1000, `%Y` is not zero-padded by the C library, and `datetime.now()` never gives such a year.
- `Text.Lower`: `str.lower()` is modelled on ASCII letters only. No non-ASCII character lower-cases to a letter of `.jpg`, `.jpeg` or `.png`.
- `History.HistoryEntry`: history records read from a hand-edited JSON file may lack keys. The model assumes well-formed records.
- `Listing.GetImagesRoute`: a `listdir` failure on an existing folder is an unhandled HTTP 500 and is not modelled.

=== FILE: capture_loop.dfy ===
/**
  One iteration of the capture thread as a pure step. The camera, the disk
  and the clock are replaced by an `Observation` per iteration; the
  callbacks and the sleeps become `Event`s.

  The loop body's own `try` catches what it raises (a failed folder
  creation, a failed reconnect) and reports it with one error event and a
  one-second sleep, after which the loop goes on. The stop flag, read only
  at the top of an iteration, is the one way out.
 */
module CaptureLoop {
  import Names

  /** Seconds between two capture folders. */
  const FolderInterval: int := 60

  /** Consecutive failed reads after which the stream is reopened. */
  const ReconnectThreshold: nat := 5

  datatype ReadOutcome = ReadFailed | EmptyFrame | GoodFrame

  /** Everything the environment decides during one iteration. */
  datatype Observation = Observation(
    stopRequested: bool,          // the stop event, at the top of the iteration
    now: int,                     // `time.time()`, whole seconds
    folderTime: Names.DateTime,   // `datetime.now()` inside `create_folder`
    folderCreated: bool,          // `makedirs` did not raise
    read: ReadOutcome,            // `read()`: no frame, an empty frame, or a frame
    reopened: bool,               // `isOpened()` after a reconnect
    frameTime: Names.DateTime,    // `datetime.now()` naming the frame file
    written: bool)                // `imwrite` returned true

  datatype ErrorKind = FolderCreationFailed | ReconnectFailed

  /** The callbacks fired and the sleeps taken, in order. */
  datatype Event =
    | NewFolder(folder: string)
    | FrameSaved(folder: string, filename: string)
    | Error(kind: ErrorKind)
    | Sleep(seconds: nat)

  datatype LoopState = LoopState(errors: nat, lastFolderTime: int, folder: string, stopped: bool)

  datatype StepResult = StepResult(state: LoopState, events: seq<Event>)

  /** The locals at thread start: no errors, the rotation clock at `now`, the folder `start_capture` made. */
  function Initial(folder: string, now: int): LoopState {
    LoopState(0, now, folder, false)
  }

  predicate RotationDue(st: LoopState, ob: Observation) {
    ob.now - st.lastFolderTime >= FolderInterval
  }

  /** The read and what follows it, after any folder rotation. */
  function ReadPhase(st: LoopState, ob: Observation): (r: StepResult)
    ensures r.state.folder == st.folder && r.state.lastFolderTime == st.lastFolderTime
    ensures r.state.stopped == st.stopped
  {
    match ob.read
    case ReadFailed =>
      var e := st.errors + 1;
      if e < ReconnectThreshold then StepResult(st.(errors := e), [])
      else if ob.reopened then StepResult(st.(errors := 0), [])
      else StepResult(st.(errors := e), [Error(ReconnectFailed), Sleep(1)])
    case EmptyFrame =>
      StepResult(st.(errors := 0), [])
    case GoodFrame =>
      var saved := if ob.written then [FrameSaved(st.folder, Names.FrameName(ob.frameTime))] else [];
      StepResult(st.(errors := 0), saved + [Sleep(1)])
  }

  /** One pass of the `while` loop of `_capture_thread`. */
  function Step(st: LoopState, ob: Observation): (r: StepResult)
    ensures r.state.stopped <==> st.stopped || ob.stopRequested
    ensures st.stopped || ob.stopRequested ==> r.events == []
    ensures forall e :: e in r.events && e.FrameSaved? ==>
              e.folder == r.state.folder && e.filename == Names.FrameName(ob.frameTime)
    ensures |r.events| <= 3
  {
    if st.stopped then StepResult(st, [])
    else if ob.stopRequested then StepResult(st.(stopped := true), [])
    else if RotationDue(st, ob) && !ob.folderCreated then
      StepResult(st, [Error(FolderCreationFailed), Sleep(1)])
    else if RotationDue(st, ob) then
      var folder := Names.FolderName(ob.folderTime);
      var rest := ReadPhase(st.(folder := folder, lastFolderTime := ob.now, errors := 0), ob);
      StepResult(rest.state, [NewFolder(folder)] + rest.events)
    else
      ReadPhase(st, ob)
  }

  /** The loop run over a sequence of iterations. */
  function Run(st: LoopState, obs: seq<Observation>): (r: StepResult)
    ensures r.state.stopped <==> st.stopped || exists i :: 0 <= i < |obs| && obs[i].stopRequested
    ensures forall e :: e in r.events && e.FrameSaved? ==>
              exists i :: 0 <= i < |obs| && e.filename == Names.FrameName(obs[i].frameTime)
    decreases |obs|
  {
    if |obs| == 0 then StepResult(st, [])
    else
      var first := Step(st, obs[0]);
      var rest := Run(first.state, obs[1..]);
      assert forall i :: 0 <= i < |obs[1..]| ==> obs[1..][i] == obs[i + 1];
      StepResult(rest.state, first.events + rest.events)
  }

  /**
    Running two stretches of iterations one after the other is running them
    together: the second starts where the first left off, and its callbacks
    follow the first's.
   */
  lemma {:induction false} RunAppend(st: LoopState, a: seq<Observation>, b: seq<Observation>)
    ensures var first := Run(st, a);
            var second := Run(first.state, b);
            Run(st, a + b) == StepResult(second.state, first.events + second.events)
    decreases |a|
  {
    if |a| == 0 {
      assert a + b == b;
    } else {
      assert (a + b)[0] == a[0];
      assert (a + b)[1..] == a[1..] + b;
      var s1 := Step(st, a[0]).state;
      RunAppend(s1, a[1..], b);
      var e1 := Step(st, a[0]).events;
      var mid := Run(s1, a[1..]);
      var second := Run(mid.state, b);
      assert e1 + (mid.events + second.events) == (e1 + mid.events) + second.events;
    }
  }

  // ---------------------------------------------------------------------
  // One iteration.
  // ---------------------------------------------------------------------

  predicate Live(st: LoopState, ob: Observation) {
    !st.stopped && !ob.stopRequested
  }

  /**
    A due rotation happens before the read: the new folder is current and
    announced first, the rotation clock is set to `now` (not advanced by
    the interval), and the counter starts again from zero, so this
    iteration's read can leave it at one at most. The read still follows in
    the same pass: the rest of the pass is a pass without rotation from the
    rotated state.
   */
  lemma RotationBeforeRead(st: LoopState, ob: Observation)
    requires Live(st, ob) && RotationDue(st, ob) && ob.folderCreated
    ensures var r := Step(st, ob);
            && r.state.folder == Names.FolderName(ob.folderTime)
            && r.state.lastFolderTime == ob.now
            && |r.events| > 0 && r.events[0] == NewFolder(Names.FolderName(ob.folderTime))
            && r.state.errors <= 1
            && Error(ReconnectFailed) !in r.events
    ensures var f := Names.FolderName(ob.folderTime);
            var st' := st.(folder := f, lastFolderTime := ob.now, errors := 0);
            && !RotationDue(st', ob)
            && Step(st, ob) == StepResult(Step(st', ob).state, [NewFolder(f)] + Step(st', ob).events)
  {
  }

  /** Before the interval is up, the folder and the rotation clock stay, and no folder is announced. */
  lemma NoRotationBeforeInterval(st: LoopState, ob: Observation)
    requires Live(st, ob) && !RotationDue(st, ob)
    ensures var r := Step(st, ob);
            && r.state.folder == st.folder
            && r.state.lastFolderTime == st.lastFolderTime
            && forall f :: NewFolder(f) !in r.events
  {
  }

  /** A folder that cannot be created is reported once; nothing else changes, so the next iteration retries. */
  lemma FolderFailureRetried(st: LoopState, ob: Observation)
    requires Live(st, ob) && RotationDue(st, ob) && !ob.folderCreated
    ensures Step(st, ob) == StepResult(st, [Error(FolderCreationFailed), Sleep(1)])
  {
  }

  /** Below the threshold a failed read only counts: no error callback and no sleep. */
  lemma FailedReadIsSilent(st: LoopState, ob: Observation)
    requires Live(st, ob) && !RotationDue(st, ob) && ob.read == ReadFailed
    requires st.errors + 1 < ReconnectThreshold
    ensures Step(st, ob) == StepResult(st.(errors := st.errors + 1), [])
  {
  }

  /**
    The failed read that brings the counter to the threshold reopens the
    stream: on success the counter is zero and nothing is reported; on
    failure the raise is caught inside the loop, which reports it, sleeps
    and goes on with the counter still at or above the threshold.
   */
  lemma ReconnectAtThreshold(st: LoopState, ob: Observation)
    requires Live(st, ob) && !RotationDue(st, ob) && ob.read == ReadFailed
    requires st.errors + 1 >= ReconnectThreshold
    ensures var r := Step(st, ob);
            && !r.state.stopped
            && (ob.reopened ==> r == StepResult(st.(errors := 0), []))
            && (!ob.reopened ==> r == StepResult(st.(errors := st.errors + 1), [Error(ReconnectFailed), Sleep(1)]))
  {
  }

  /** After a failed reconnect, the next failed read reconnects again unless a folder rotation reset the counter. */
  lemma FailedReconnectRetried(st: LoopState, ob: Observation, ob': Observation)
    requires Live(st, ob) && !RotationDue(st, ob) && ob.read == ReadFailed
    requires st.errors + 1 >= ReconnectThreshold && !ob.reopened
    requires var s := Step(st, ob).state;
             Live(s, ob') && !RotationDue(s, ob') && ob'.read == ReadFailed
    ensures var r := Step(Step(st, ob).state, ob');
            r.state.errors == 0 || Error(ReconnectFailed) in r.events
  {
  }

  /**
    A successful read clears the counter even when the frame turns out empty.
    An empty frame is dropped without a sleep; a good one is written into the
    current folder, announced only if the write succeeded, then followed by
    a one-second sleep.
   */
  lemma SuccessfulRead(st: LoopState, ob: Observation)
    requires Live(st, ob) && !RotationDue(st, ob) && ob.read != ReadFailed
    ensures var r := Step(st, ob);
            && r.state.errors == 0
            && (ob.read == EmptyFrame ==> r.events == [])
            && (ob.read == GoodFrame ==>
                  r.events == (if ob.written then [FrameSaved(st.folder, Names.FrameName(ob.frameTime))] else [])
                              + [Sleep(1)])
  {
  }

  // ---------------------------------------------------------------------
  // Whole runs.
  // ---------------------------------------------------------------------

  /** Once the loop has seen the stop flag it has ended: nothing further happens. */
  lemma {:induction false} StoppedStaysStopped(st: LoopState, obs: seq<Observation>)
    requires st.stopped
    ensures Run(st, obs) == StepResult(st, [])
    decreases |obs|
  {
    if |obs| > 0 {
      StoppedStaysStopped(st, obs[1..]);
    }
  }

  predicate ReopensSucceed(obs: seq<Observation>) {
    forall i :: 0 <= i < |obs| ==> obs[i].reopened
  }

  /** While every reconnect succeeds, the counter is below the threshold at the top of each iteration. */
  lemma {:induction false} ErrorsBelowThreshold(st: LoopState, obs: seq<Observation>)
    requires st.errors < ReconnectThreshold
    requires ReopensSucceed(obs)
    ensures Run(st, obs).state.errors < ReconnectThreshold
    decreases |obs|
  {
    if |obs| > 0 {
      assert obs[0].reopened;
      var s := Step(st, obs[0]).state;
      assert s.errors < ReconnectThreshold;
      assert ReopensSucceed(obs[1..]) by {
        forall i | 0 <= i < |obs[1..]| ensures obs[1..][i].reopened {
          assert obs[1..][i] == obs[i + 1];
        }
      }
      ErrorsBelowThreshold(s, obs[1..]);
    }
  }

  /** An iteration that neither stops, rotates nor reads successfully. */
  predicate QuietFailure(st: LoopState, ob: Observation) {
    !ob.stopRequested && !RotationDue(st, ob) && ob.read == ReadFailed
  }

  /**
    Four failed reads followed by a written frame: no error callback and no
    reconnect, one saved frame, one sleep, and the counter back at zero.
   */
  lemma FourFailuresThenFrame(st: LoopState, f: Observation, g: Observation)
    requires !st.stopped && st.errors == 0
    requires QuietFailure(st, f)
    requires !g.stopRequested && !RotationDue(st, g) && g.read == GoodFrame && g.written
    ensures Run(st, [f, f, f, f, g])
         == StepResult(st, [FrameSaved(st.folder, Names.FrameName(g.frameTime)), Sleep(1)])
  {
    var saved := [FrameSaved(st.folder, Names.FrameName(g.frameTime)), Sleep(1)];
    assert [g][1..] == [];
    assert Run(st.(errors := 4), [g]) == StepResult(st, saved);
    assert [f, g][1..] == [g];
    assert Run(st.(errors := 3), [f, g]) == StepResult(st, saved);
    assert [f, f, g][1..] == [f, g];
    assert Run(st.(errors := 2), [f, f, g]) == StepResult(st, saved);
    assert [f, f, f, g][1..] == [f, f, g];
    assert Run(st.(errors := 1), [f, f, f, g]) == StepResult(st, saved);
    assert [f, f, f, f, g][1..] == [f, f, f, g];
  }

  /**
    Five failed reads with a failed reconnect: one error callback, one sleep,
    and the loop still running with the counter at the threshold.
   */
  lemma FiveFailuresFailedReopen(st: LoopState, f: Observation)
    requires !st.stopped && st.errors == 0
    requires QuietFailure(st, f) && !f.reopened
    ensures Run(st, [f, f, f, f, f])
         == StepResult(st.(errors := 5), [Error(ReconnectFailed), Sleep(1)])
  {
    var failed := [Error(ReconnectFailed), Sleep(1)];
    var last := st.(errors := 5);
    assert [f][1..] == [];
    assert Run(st.(errors := 4), [f]) == StepResult(last, failed);
    assert [f, f][1..] == [f];
    assert Run(st.(errors := 3), [f, f]) == StepResult(last, failed);
    assert [f, f, f][1..] == [f, f];
    assert Run(st.(errors := 2), [f, f, f]) == StepResult(last, failed);
    assert [f, f, f, f][1..] == [f, f, f];
    assert Run(st.(errors := 1), [f, f, f, f]) == StepResult(last, failed);
    assert [f, f, f, f, f][1..] == [f, f, f, f];
  }
}

=== FILE: history.dfy ===
/**
  The list of stream URLs used before, held in memory (the JSON file it is
  saved to is not modelled). Entries are records of URL, display name and
  the `last_used` stamp string.
 */
module History {
  import opened Text
  import opened Sorting

  datatype HistoryEntry = HistoryEntry(url: string, name: string, lastUsed: string)

  function LastUsed(e: HistoryEntry): string {
    e.lastUsed
  }

  predicate HasUrl(h: seq<HistoryEntry>, url: string) {
    exists i :: 0 <= i < |h| && h[i].url == url
  }

  /** `i` is the position of the first entry for `url`, the one `add_to_history`'s loop stops at. */
  predicate FirstWithUrl(h: seq<HistoryEntry>, url: string, i: int) {
    0 <= i < |h| && h[i].url == url && forall k :: 0 <= k < i ==> h[k].url != url
  }

  function FindUrl(h: seq<HistoryEntry>, url: string): (i: nat)
    requires HasUrl(h, url)
    ensures FirstWithUrl(h, url, i)
  {
    if h[0].url == url then 0
    else
      assert HasUrl(h[1..], url) by {
        var i :| 0 <= i < |h| && h[i].url == url;
        assert h[1..][i - 1] == h[i];
      }
      1 + FindUrl(h[1..], url)
  }

  /**
    `add_to_history`: a URL already listed gets the new stamp on its first
    entry, in place; a new URL is appended with itself as display name.
   */
  function AddToHistory(h: seq<HistoryEntry>, url: string, stamp: string): (r: seq<HistoryEntry>)
    ensures |r| == if HasUrl(h, url) then |h| else |h| + 1
    ensures forall j :: 0 <= j < |h| && !FirstWithUrl(h, url, j) ==> r[j] == h[j]
    ensures forall j :: FirstWithUrl(h, url, j) ==> r[j] == h[j].(lastUsed := stamp)
    ensures !HasUrl(h, url) ==> r[|h|] == HistoryEntry(url, url, stamp)
  {
    if HasUrl(h, url) then
      var i := FindUrl(h, url);
      h[i := h[i].(lastUsed := stamp)]
    else
      h + [HistoryEntry(url, url, stamp)]
  }

  /** `remove_from_history`: every entry for `url` goes, the rest keep their order. */
  function RemoveFromHistory(h: seq<HistoryEntry>, url: string): (r: seq<HistoryEntry>)
    ensures forall i :: 0 <= i < |r| ==> r[i].url != url
    ensures |r| <= |h|
  {
    if |h| == 0 then []
    else (if h[0].url == url then [] else [h[0]]) + RemoveFromHistory(h[1..], url)
  }

  /** `get_history`: most recently used first; equal stamps keep their list order. */
  function GetHistory(h: seq<HistoryEntry>): (r: seq<HistoryEntry>)
    ensures multiset(r) == multiset(h)
    ensures forall i, j :: 0 <= i < j < |r| ==> !LexLess(r[i].lastUsed, r[j].lastUsed)
  {
    SortByKeySorted(h, LastUsed, true);
    SortByKey(h, LastUsed, true)
  }

  // ---------------------------------------------------------------------
  // Laws.
  // ---------------------------------------------------------------------

  /** After an add the URL is listed, and its first entry carries the new stamp. */
  lemma AddRecordsUse(h: seq<HistoryEntry>, url: string, stamp: string)
    ensures var r := AddToHistory(h, url, stamp);
            exists i :: FirstWithUrl(r, url, i) && r[i].lastUsed == stamp
  {
    var r := AddToHistory(h, url, stamp);
    if HasUrl(h, url) {
      var i := FindUrl(h, url);
      assert FirstWithUrl(r, url, i);
    } else {
      assert FirstWithUrl(r, url, |h|);
    }
  }

  /** Adding a URL twice is adding it once with the later stamp. */
  lemma AddTwice(h: seq<HistoryEntry>, url: string, s1: string, s2: string)
    ensures AddToHistory(AddToHistory(h, url, s1), url, s2) == AddToHistory(h, url, s2)
  {
    var a := AddToHistory(h, url, s1);
    if HasUrl(h, url) {
      var i := FindUrl(h, url);
      assert FirstWithUrl(a, url, i);
    } else {
      assert FirstWithUrl(a, url, |h|);
    }
  }

  /** Exactly the entries for other URLs survive a removal. */
  lemma {:induction false} RemoveKeepsOthers(h: seq<HistoryEntry>, url: string, e: HistoryEntry)
    ensures e in RemoveFromHistory(h, url) <==> e in h && e.url != url
    decreases |h|
  {
    if |h| > 0 {
      RemoveKeepsOthers(h[1..], url, e);
      assert h == [h[0]] + h[1..];
    }
  }

  /** Removal distributes over concatenation: the survivors keep their relative order. */
  lemma {:induction false} RemoveAppend(a: seq<HistoryEntry>, b: seq<HistoryEntry>, url: string)
    ensures RemoveFromHistory(a + b, url) == RemoveFromHistory(a, url) + RemoveFromHistory(b, url)
    decreases |a|
  {
    if |a| == 0 {
      assert a + b == b;
    } else {
      var ab := a + b;
      var head := if a[0].url == url then [] else [a[0]];
      assert ab[0] == a[0] && ab[1..] == a[1..] + b;
      assert RemoveFromHistory(ab, url) == head + RemoveFromHistory(a[1..] + b, url);
      assert RemoveFromHistory(a, url) == head + RemoveFromHistory(a[1..], url);
      RemoveAppend(a[1..], b, url);
      assert head + (RemoveFromHistory(a[1..], url) + RemoveFromHistory(b, url))
          == (head + RemoveFromHistory(a[1..], url)) + RemoveFromHistory(b, url);
    }
  }

  lemma {:induction false} RemoveAbsent(h: seq<HistoryEntry>, url: string)
    requires !HasUrl(h, url)
    ensures RemoveFromHistory(h, url) == h
    decreases |h|
  {
    if |h| > 0 {
      forall i | 0 <= i < |h[1..]|
        ensures h[1..][i].url != url
      {
        assert h[1..][i] == h[i + 1];
      }
      RemoveAbsent(h[1..], url);
      assert h == [h[0]] + h[1..];
    }
  }

  /** Removing a URL that was just added for the first time restores the list. */
  lemma RemoveUndoesNewAdd(h: seq<HistoryEntry>, url: string, stamp: string)
    requires !HasUrl(h, url)
    ensures RemoveFromHistory(AddToHistory(h, url, stamp), url) == h
  {
    var e := HistoryEntry(url, url, stamp);
    RemoveAppend(h, [e], url);
    RemoveAbsent(h, url);
    assert RemoveFromHistory([e], url) == [] + RemoveFromHistory([], url);
  }

  lemma RemoveIdempotent(h: seq<HistoryEntry>, url: string)
    ensures RemoveFromHistory(RemoveFromHistory(h, url), url) == RemoveFromHistory(h, url)
  {
    RemoveAbsent(RemoveFromHistory(h, url), url);
  }

  /** Entries sharing a stamp are listed in their stored order (Python's sort is stable). */
  lemma GetHistoryStable(h: seq<HistoryEntry>, stamp: string)
    ensures WithKey(GetHistory(h), LastUsed, stamp) == WithKey(h, LastUsed, stamp)
  {
    SortByKeyStable(h, LastUsed, true, stamp);
  }

  /** A URL used more recently than every listed entry heads the history listing. */
  lemma NewestAddListedFirst(h: seq<HistoryEntry>, url: string, stamp: string)
    requires forall j :: 0 <= j < |h| ==> LexLess(h[j].lastUsed, stamp)
    ensures var r := GetHistory(AddToHistory(h, url, stamp));
            |r| > 0 && r[0].url == url && r[0].lastUsed == stamp
  {
    var a := AddToHistory(h, url, stamp);
    var r := GetHistory(a);
    AddRecordsUse(h, url, stamp);
    var k :| FirstWithUrl(a, url, k) && a[k].lastUsed == stamp;
    // Every other entry of `a` is older than `stamp`.
    forall j | 0 <= j < |a| && j != k
      ensures LexLess(a[j].lastUsed, stamp)
    {
    }
    assert a[k] in multiset(r);
    var m :| 0 <= m < |r| && r[m] == a[k];
    assert r[0] in multiset(a);
    var j :| 0 <= j < |a| && a[j] == r[0];
    if j != k {
      LexLessAsymmetric(a[j].lastUsed, stamp);
      if m == 0 {
        LexLessIrreflexive(stamp);
      }
    }
  }
}

=== FILE: listing.dfy ===
/**
  The listings of the capture directory: `get_folders` and `get_images` of
  the stream manager, and the `get_images` HTTP route, which filters image
  names case-sensitively where the manager lower-cases them first. A
  directory listing is an input: `None` when the directory is missing (or,
  for the manager, cannot be listed), otherwise its entries in listing order.
 */
module Listing {
  import opened Wrappers
  import opened Text
  import opened Sorting
  import Names

  datatype DirEntry = DirEntry(name: string, isDir: bool)

  /** The error the route answers with HTTP 404. */
  datatype RouteError = FolderNotFound

  function Name(s: string): string {
    s
  }

  /** The names of the sub-directories, in listing order. */
  function DirNames(es: seq<DirEntry>): (r: seq<string>)
    ensures forall n :: multiset(r)[n] == multiset(es)[DirEntry(n, true)]
  {
    if |es| == 0 then []
    else
      assert es == [es[0]] + es[1..];
      (if es[0].isDir then [es[0].name] else []) + DirNames(es[1..])
  }

  /** `get_folders`: the sub-directory names, newest (greatest) first. */
  function GetFolders(listing: Option<seq<DirEntry>>): (r: seq<string>)
    ensures listing.None? ==> r == []
    ensures listing.Some? ==> multiset(r) == multiset(DirNames(listing.value))
    ensures forall i, j :: 0 <= i < j < |r| ==> !LexLess(r[i], r[j])
  {
    match listing
    case None => []
    case Some(es) =>
      SortByKeySorted(DirNames(es), Name, true);
      SortByKey(DirNames(es), Name, true)
  }

  predicate HasImageExtension(name: string) {
    EndsWith(name, ".jpg") || EndsWith(name, ".jpeg") || EndsWith(name, ".png")
  }

  /** The manager's test lower-cases the name first; the route's does not. */
  predicate IsImageName(name: string, foldCase: bool) {
    HasImageExtension(if foldCase then Lower(name) else name)
  }

  function ImageNames(names: seq<string>, foldCase: bool): (r: seq<string>)
    ensures forall n :: multiset(r)[n] == if IsImageName(n, foldCase) then multiset(names)[n] else 0
  {
    if |names| == 0 then []
    else
      assert names == [names[0]] + names[1..];
      (if IsImageName(names[0], foldCase) then [names[0]] else []) + ImageNames(names[1..], foldCase)
  }

  /** `StreamManager.get_images`: the image files, ascending; nothing for a missing folder. */
  function GetImages(listing: Option<seq<string>>): (r: seq<string>)
    ensures listing.None? ==> r == []
    ensures listing.Some? ==> forall n :: multiset(r)[n] == if IsImageName(n, true) then multiset(listing.value)[n] else 0
    ensures forall i, j :: 0 <= i < j < |r| ==> !LexLess(r[j], r[i])
  {
    match listing
    case None => []
    case Some(names) =>
      SortByKeySorted(ImageNames(names, true), Name, false);
      SortByKey(ImageNames(names, true), Name, false)
  }

  /** The `get_images` route: the image files, ascending, or 404 for a missing folder. */
  function GetImagesRoute(listing: Option<seq<string>>): (r: Result<seq<string>, RouteError>)
    ensures listing.None? <==> r == Err(FolderNotFound)
    ensures r.Ok? ==> forall n :: multiset(r.value)[n] == if IsImageName(n, false) then multiset(listing.value)[n] else 0
    ensures r.Ok? ==> forall i, j :: 0 <= i < j < |r.value| ==> !LexLess(r.value[j], r.value[i])
  {
    match listing
    case None => Err(FolderNotFound)
    case Some(names) =>
      SortByKeySorted(ImageNames(names, false), Name, false);
      Ok(SortByKey(ImageNames(names, false), Name, false))
  }

  // ---------------------------------------------------------------------
  // Laws.
  // ---------------------------------------------------------------------

  /** A name the route takes as an image, the manager takes too. */
  lemma CaseSensitiveImpliesFolded(name: string)
    requires IsImageName(name, false)
    ensures IsImageName(name, true)
  {
    if EndsWith(name, ".jpg") {
      LowerKeepsLowerSuffix(name, ".jpg");
    } else if EndsWith(name, ".jpeg") {
      LowerKeepsLowerSuffix(name, ".jpeg");
    } else {
      LowerKeepsLowerSuffix(name, ".png");
    }
  }

  /** The route never lists an image the manager would leave out. */
  lemma RouteListsFewerImages(names: seq<string>)
    ensures GetImagesRoute(Some(names)).Ok?
    ensures multiset(GetImagesRoute(Some(names)).value) <= multiset(GetImages(Some(names)))
  {
    var r, m := GetImagesRoute(Some(names)).value, GetImages(Some(names));
    forall n | n in multiset(r)
      ensures multiset(r)[n] <= multiset(m)[n]
    {
      CaseSensitiveImpliesFolded(n);
    }
  }

  /** Upper-case extensions are where the two filters part. */
  lemma UpperCaseExtensionExample()
    ensures GetImages(Some(["A.JPG"])) == ["A.JPG"]
    ensures GetImagesRoute(Some(["A.JPG"])) == Ok([])
  {
    var n := "A.JPG";
    assert Lower(n)[1..] == ".jpg";
    assert Lower(n)[|Lower(n)| - 4..] == ".jpg";
    assert IsImageName(n, true);
    assert n[|n| - 4..][1] != ".jpg"[1];
    assert n[|n| - 4..] != ".jpg";
    assert !IsImageName(n, false);
    var m := GetImages(Some([n]));
    assert multiset(m)[n] == 1;
    assert |m| == 1;
  }

  /** A frame the capture loop saved is listed by both image listings. */
  lemma FrameNamesAreImages(dt: Names.DateTime)
    ensures IsImageName(Names.FrameName(dt), false)
    ensures IsImageName(Names.FrameName(dt), true)
  {
    CaseSensitiveImpliesFolded(Names.FrameName(dt));
  }

  /** `get_folders` lists a later capture folder before an earlier one. */
  lemma FoldersNewestFirst(listing: seq<DirEntry>, a: Names.DateTime, b: Names.DateTime)
    requires Names.Valid(a) && Names.Valid(b) && Names.MinuteBefore(a, b)
    ensures var r := GetFolders(Some(listing));
            forall i, j :: 0 <= i < |r| && 0 <= j < |r| && r[i] == Names.FolderName(a) && r[j] == Names.FolderName(b) ==> j < i
  {
    Names.FolderNameOrder(a, b);
    LexLessIrreflexive(Names.FolderName(a));
  }

  /** `get_images` lists frames in the order they were captured. */
  lemma FramesInCaptureOrder(names: seq<string>, a: Names.DateTime, b: Names.DateTime)
    requires Names.Valid(a) && Names.Valid(b) && Names.SecondBefore(a, b)
    ensures var r := GetImages(Some(names));
            forall i, j :: 0 <= i < |r| && 0 <= j < |r| && r[i] == Names.FrameName(a) && r[j] == Names.FrameName(b) ==> i < j
  {
    Names.FrameNameOrder(a, b);
    LexLessIrreflexive(Names.FrameName(a));
    LexLessAsymmetric(Names.FrameName(a), Names.FrameName(b));
  }
}

=== FILE: names.dfy ===
/**
  The timestamp formats the capture manager writes with `strftime`:
  folders `%Y%m%d_%H%M`, frames `frame_%Y%m%d_%H%M%S.jpg`, and history
  stamps `%Y-%m-%d %H:%M:%S`. Every field is a zero-padded run of decimal
  digits of fixed width, which is why string order and time order agree.
 */
module Names {
  import opened Text

  /** A reading of the wall clock, as `datetime.now()` yields it. */
  datatype DateTime = DateTime(year: nat, month: nat, day: nat, hour: nat, minute: nat, second: nat)

  /**
    A `datetime` field set; the year is kept to four digits, the range in
    which `%Y` is zero-padded to width four.
   */
  predicate Valid(dt: DateTime) {
    && 1000 <= dt.year <= 9999
    && 1 <= dt.month <= 12
    && 1 <= dt.day <= 31
    && dt.hour < 24
    && dt.minute < 60
    && dt.second < 60
  }

  function DigitChar(d: nat): (c: char)
    requires d < 10
    ensures '0' <= c <= '9'
  {
    (48 + d) as char
  }

  function Pow10(w: nat): nat {
    if w == 0 then 1 else 10 * Pow10(w - 1)
  }

  /** The last `w` decimal digits of `n`, zero-padded: `%0<w>d` for `n < 10^w`. */
  function Digits(n: nat, w: nat): (r: string)
    ensures |r| == w
    ensures forall i :: 0 <= i < w ==> '0' <= r[i] <= '9'
  {
    if w == 0 then [] else Digits(n / 10, w - 1) + [DigitChar(n % 10)]
  }

  predicate AllDigits(s: string) {
    forall i :: 0 <= i < |s| ==> '0' <= s[i] <= '9'
  }

  /** The number a run of decimal digits spells, as `int(s)` reads it. */
  function DecimalValue(s: string): nat
    requires AllDigits(s)
  {
    if |s| == 0 then 0 else 10 * DecimalValue(s[..|s| - 1]) + (s[|s| - 1] as int - '0' as int)
  }

  /** Reading a zero-padded field back gives the number it was written from. */
  lemma {:induction false} DigitsValue(n: nat, w: nat)
    requires n < Pow10(w)
    ensures DecimalValue(Digits(n, w)) == n
  {
    if w > 0 {
      var s := Digits(n, w);
      assert s[..|s| - 1] == Digits(n / 10, w - 1);
      assert s[|s| - 1] == DigitChar(n % 10);
      DigitsValue(n / 10, w - 1);
    }
  }

  // ---------------------------------------------------------------------
  // The three formats.
  // ---------------------------------------------------------------------

  /** `%Y%m%d` */
  function DatePart(dt: DateTime): string {
    Digits(dt.year, 4) + Digits(dt.month, 2) + Digits(dt.day, 2)
  }

  /** The capture folder of the minute `dt` falls in: `%Y%m%d_%H%M`. */
  function FolderName(dt: DateTime): (r: string)
    ensures |r| == 13 && r[8] == '_'
    ensures AllDigits(r[..8]) && AllDigits(r[9..])
  {
    DatePart(dt) + "_" + Digits(dt.hour, 2) + Digits(dt.minute, 2)
  }

  /** The file name of a frame captured at `dt`: `frame_%Y%m%d_%H%M%S.jpg`. */
  function FrameName(dt: DateTime): (r: string)
    ensures |r| == 25
    ensures r[..6] == "frame_" && EndsWith(r, ".jpg") && r[14] == '_'
    ensures AllDigits(r[6..14]) && AllDigits(r[15..21])
  {
    "frame_" + DatePart(dt) + "_" + Digits(dt.hour, 2) + Digits(dt.minute, 2) + Digits(dt.second, 2) + ".jpg"
  }

  /** The `last_used` value of a history entry: `%Y-%m-%d %H:%M:%S`. */
  function HistoryStamp(dt: DateTime): (r: string)
    ensures |r| == 19
    ensures r[4] == '-' && r[7] == '-' && r[10] == ' ' && r[13] == ':' && r[16] == ':'
    ensures AllDigits(r[..4]) && AllDigits(r[5..7]) && AllDigits(r[8..10])
    ensures AllDigits(r[11..13]) && AllDigits(r[14..16]) && AllDigits(r[17..])
  {
    Digits(dt.year, 4) + "-" + Digits(dt.month, 2) + "-" + Digits(dt.day, 2) + " "
      + Digits(dt.hour, 2) + ":" + Digits(dt.minute, 2) + ":" + Digits(dt.second, 2)
  }

  // ---------------------------------------------------------------------
  // Chronological order.
  // ---------------------------------------------------------------------

  predicate SameDay(a: DateTime, b: DateTime) {
    a.year == b.year && a.month == b.month && a.day == b.day
  }

  predicate DayBefore(a: DateTime, b: DateTime) {
    || a.year < b.year
    || (a.year == b.year && a.month < b.month)
    || (a.year == b.year && a.month == b.month && a.day < b.day)
  }

  predicate SameMinute(a: DateTime, b: DateTime) {
    SameDay(a, b) && a.hour == b.hour && a.minute == b.minute
  }

  predicate MinuteBefore(a: DateTime, b: DateTime) {
    || DayBefore(a, b)
    || (SameDay(a, b) && a.hour < b.hour)
    || (SameDay(a, b) && a.hour == b.hour && a.minute < b.minute)
  }

  predicate SameSecond(a: DateTime, b: DateTime) {
    SameMinute(a, b) && a.second == b.second
  }

  predicate SecondBefore(a: DateTime, b: DateTime) {
    MinuteBefore(a, b) || (SameMinute(a, b) && a.second < b.second)
  }

  // ---------------------------------------------------------------------
  // String order is time order.
  // ---------------------------------------------------------------------

  lemma DecimalSplit(n: nat, m: nat)
    ensures n < m <==> n / 10 < m / 10 || (n / 10 == m / 10 && n % 10 < m % 10)
    ensures n == m <==> n / 10 == m / 10 && n % 10 == m % 10
  {
    assert n == 10 * (n / 10) + n % 10;
    assert m == 10 * (m / 10) + m % 10;
  }

  /** Fixed-width digit strings compare as the numbers they spell. */
  lemma {:induction false} DigitsOrder(n: nat, m: nat, w: nat)
    requires n < Pow10(w) && m < Pow10(w)
    ensures LexLess(Digits(n, w), Digits(m, w)) <==> n < m
    ensures Digits(n, w) == Digits(m, w) <==> n == m
  {
    if w == 0 {
      LexLessIrreflexive([]);
    } else {
      DigitsOrder(n / 10, m / 10, w - 1);
      var x, y := DigitChar(n % 10), DigitChar(m % 10);
      LexLessAppend(Digits(n / 10, w - 1), [x], Digits(m / 10, w - 1), [y]);
      assert LexLess([x], [y]) <==> x < y by {
        assert [x][1..] == [] && [y][1..] == [];
        LexLessIrreflexive([]);
      }
      DecimalSplit(n, m);
    }
  }

  /** The field comparisons every format is built from. */
  lemma FieldsOrder(a: DateTime, b: DateTime)
    requires Valid(a) && Valid(b)
    ensures LexLess(Digits(a.year, 4), Digits(b.year, 4)) <==> a.year < b.year
    ensures Digits(a.year, 4) == Digits(b.year, 4) <==> a.year == b.year
    ensures LexLess(Digits(a.month, 2), Digits(b.month, 2)) <==> a.month < b.month
    ensures Digits(a.month, 2) == Digits(b.month, 2) <==> a.month == b.month
    ensures LexLess(Digits(a.day, 2), Digits(b.day, 2)) <==> a.day < b.day
    ensures Digits(a.day, 2) == Digits(b.day, 2) <==> a.day == b.day
    ensures LexLess(Digits(a.hour, 2), Digits(b.hour, 2)) <==> a.hour < b.hour
    ensures Digits(a.hour, 2) == Digits(b.hour, 2) <==> a.hour == b.hour
    ensures LexLess(Digits(a.minute, 2), Digits(b.minute, 2)) <==> a.minute < b.minute
    ensures Digits(a.minute, 2) == Digits(b.minute, 2) <==> a.minute == b.minute
    ensures LexLess(Digits(a.second, 2), Digits(b.second, 2)) <==> a.second < b.second
    ensures Digits(a.second, 2) == Digits(b.second, 2) <==> a.second == b.second
  {
    assert Pow10(2) == 100;
    assert Pow10(4) == 10000;
    DigitsOrder(a.year, b.year, 4);
    DigitsOrder(a.month, b.month, 2);
    DigitsOrder(a.day, b.day, 2);
    DigitsOrder(a.hour, b.hour, 2);
    DigitsOrder(a.minute, b.minute, 2);
    DigitsOrder(a.second, b.second, 2);
  }

  /** Appending the same separator to two equal-length strings keeps their order. */
  lemma LexLessSeparator(a: string, b: string, sep: string)
    requires |a| == |b|
    ensures LexLess(a + sep, b + sep) <==> LexLess(a, b)
    ensures a + sep == b + sep <==> a == b
  {
    LexLessAppend(a, sep, b, sep);
    LexLessIrreflexive(sep);
  }

  lemma DatePartOrder(a: DateTime, b: DateTime)
    requires Valid(a) && Valid(b)
    ensures LexLess(DatePart(a), DatePart(b)) <==> DayBefore(a, b)
    ensures DatePart(a) == DatePart(b) <==> SameDay(a, b)
  {
    FieldsOrder(a, b);
    LexLessAppend(Digits(a.year, 4), Digits(a.month, 2), Digits(b.year, 4), Digits(b.month, 2));
    LexLessAppend(Digits(a.year, 4) + Digits(a.month, 2), Digits(a.day, 2),
                  Digits(b.year, 4) + Digits(b.month, 2), Digits(b.day, 2));
  }

  /** Sorting folder names sorts the folders by the minute they were opened. */
  lemma FolderNameOrder(a: DateTime, b: DateTime)
    requires Valid(a) && Valid(b)
    ensures LexLess(FolderName(a), FolderName(b)) <==> MinuteBefore(a, b)
    ensures FolderName(a) == FolderName(b) <==> SameMinute(a, b)
  {
    FieldsOrder(a, b);
    DatePartOrder(a, b);
    var pa, pb := DatePart(a) + "_", DatePart(b) + "_";
    LexLessSeparator(DatePart(a), DatePart(b), "_");
    LexLessAppend(pa, Digits(a.hour, 2), pb, Digits(b.hour, 2));
    LexLessAppend(pa + Digits(a.hour, 2), Digits(a.minute, 2), pb + Digits(b.hour, 2), Digits(b.minute, 2));
  }

  /** A frame's name is its folder's name with the seconds added, between a fixed prefix and suffix. */
  lemma FrameNameSplit(dt: DateTime)
    ensures FrameName(dt) == "frame_" + (FolderName(dt) + Digits(dt.second, 2)) + ".jpg"
  {
  }

  /** Sorting frame file names sorts the frames by the second they were captured. */
  lemma FrameNameOrder(a: DateTime, b: DateTime)
    requires Valid(a) && Valid(b)
    ensures LexLess(FrameName(a), FrameName(b)) <==> SecondBefore(a, b)
    ensures FrameName(a) == FrameName(b) <==> SameSecond(a, b)
  {
    FieldsOrder(a, b);
    FolderNameOrder(a, b);
    FrameNameSplit(a);
    FrameNameSplit(b);
    var sa, sb := FolderName(a) + Digits(a.second, 2), FolderName(b) + Digits(b.second, 2);
    LexLessAppend(FolderName(a), Digits(a.second, 2), FolderName(b), Digits(b.second, 2));
    LexLessIrreflexive("frame_");
    LexLessAppend("frame_", sa, "frame_", sb);
    LexLessSeparator("frame_" + sa, "frame_" + sb, ".jpg");
  }

  /** `%Y-%m-%d`, the date half of a history stamp. */
  function StampDate(dt: DateTime): string {
    Digits(dt.year, 4) + "-" + Digits(dt.month, 2) + "-" + Digits(dt.day, 2)
  }

  /** ` %H:%M:%S`, the time half of a history stamp. */
  function StampTime(dt: DateTime): string {
    " " + Digits(dt.hour, 2) + ":" + Digits(dt.minute, 2) + ":" + Digits(dt.second, 2)
  }

  lemma HistoryStampSplit(dt: DateTime)
    ensures HistoryStamp(dt) == StampDate(dt) + StampTime(dt)
  {
  }

  lemma StampDateOrder(a: DateTime, b: DateTime)
    requires Valid(a) && Valid(b)
    ensures LexLess(StampDate(a), StampDate(b)) <==> DayBefore(a, b)
    ensures StampDate(a) == StampDate(b) <==> SameDay(a, b)
  {
    FieldsOrder(a, b);
    var ya, yb := Digits(a.year, 4) + "-", Digits(b.year, 4) + "-";
    LexLessSeparator(Digits(a.year, 4), Digits(b.year, 4), "-");
    var ma, mb := ya + Digits(a.month, 2), yb + Digits(b.month, 2);
    LexLessAppend(ya, Digits(a.month, 2), yb, Digits(b.month, 2));
    LexLessSeparator(ma, mb, "-");
    LexLessAppend(ma + "-", Digits(a.day, 2), mb + "-", Digits(b.day, 2));
  }

  lemma StampTimeOrder(a: DateTime, b: DateTime)
    requires Valid(a) && Valid(b)
    ensures LexLess(StampTime(a), StampTime(b)) <==>
              a.hour < b.hour || (a.hour == b.hour && (a.minute < b.minute || (a.minute == b.minute && a.second < b.second)))
    ensures StampTime(a) == StampTime(b) <==> a.hour == b.hour && a.minute == b.minute && a.second == b.second
  {
    FieldsOrder(a, b);
    LexLessIrreflexive(" ");
    LexLessAppend(" ", Digits(a.hour, 2), " ", Digits(b.hour, 2));
    var ha, hb := " " + Digits(a.hour, 2), " " + Digits(b.hour, 2);
    LexLessSeparator(ha, hb, ":");
    LexLessAppend(ha + ":", Digits(a.minute, 2), hb + ":", Digits(b.minute, 2));
    var ia, ib := ha + ":" + Digits(a.minute, 2), hb + ":" + Digits(b.minute, 2);
    LexLessSeparator(ia, ib, ":");
    LexLessAppend(ia + ":", Digits(a.second, 2), ib + ":", Digits(b.second, 2));
  }

  /** Sorting history stamps as strings sorts them by time. */
  lemma HistoryStampOrder(a: DateTime, b: DateTime)
    requires Valid(a) && Valid(b)
    ensures LexLess(HistoryStamp(a), HistoryStamp(b)) <==> SecondBefore(a, b)
    ensures HistoryStamp(a) == HistoryStamp(b) <==> SameSecond(a, b)
  {
    HistoryStampSplit(a);
    HistoryStampSplit(b);
    StampDateOrder(a, b);
    StampTimeOrder(a, b);
    LexLessAppend(StampDate(a), StampTime(a), StampDate(b), StampTime(b));
  }

  // ---------------------------------------------------------------------
  // Every name can be read back into the time it was made from.
  // ---------------------------------------------------------------------

  lemma DatePartFields(dt: DateTime)
    requires Valid(dt)
    ensures var d := DatePart(dt);
            && DecimalValue(d[..4]) == dt.year
            && DecimalValue(d[4..6]) == dt.month
            && DecimalValue(d[6..]) == dt.day
  {
    var d := DatePart(dt);
    assert Pow10(2) == 100 && Pow10(4) == 10000;
    assert d[..4] == Digits(dt.year, 4);
    assert d[4..6] == Digits(dt.month, 2);
    assert d[6..] == Digits(dt.day, 2);
    DigitsValue(dt.year, 4);
    DigitsValue(dt.month, 2);
    DigitsValue(dt.day, 2);
  }

  lemma ClockFields(dt: DateTime)
    requires Valid(dt)
    ensures DecimalValue(Digits(dt.hour, 2)) == dt.hour
    ensures DecimalValue(Digits(dt.minute, 2)) == dt.minute
    ensures DecimalValue(Digits(dt.second, 2)) == dt.second
  {
    assert Pow10(2) == 100;
    DigitsValue(dt.hour, 2);
    DigitsValue(dt.minute, 2);
    DigitsValue(dt.second, 2);
  }

  /** A folder name spells the year, month, day, hour and minute of its folder. */
  lemma FolderNameFields(dt: DateTime)
    requires Valid(dt)
    ensures var r := FolderName(dt);
            && DecimalValue(r[..4]) == dt.year
            && DecimalValue(r[4..6]) == dt.month
            && DecimalValue(r[6..8]) == dt.day
            && DecimalValue(r[9..11]) == dt.hour
            && DecimalValue(r[11..13]) == dt.minute
  {
    var r := FolderName(dt);
    var d := DatePart(dt);
    DatePartFields(dt);
    ClockFields(dt);
    assert r[..8] == d;
    assert r[..4] == d[..4] && r[4..6] == d[4..6] && r[6..8] == d[6..];
    assert r[9..11] == Digits(dt.hour, 2);
    assert r[11..13] == Digits(dt.minute, 2);
  }

  /** A frame name spells the second the frame was captured. */
  lemma FrameNameFields(dt: DateTime)
    requires Valid(dt)
    ensures var r := FrameName(dt);
            && DecimalValue(r[6..10]) == dt.year
            && DecimalValue(r[10..12]) == dt.month
            && DecimalValue(r[12..14]) == dt.day
            && DecimalValue(r[15..17]) == dt.hour
            && DecimalValue(r[17..19]) == dt.minute
            && DecimalValue(r[19..21]) == dt.second
  {
    var r := FrameName(dt);
    var f := FolderName(dt);
    FrameNameSplit(dt);
    FolderNameFields(dt);
    ClockFields(dt);
    assert r[6..19] == f;
    assert r[6..10] == f[..4] && r[10..12] == f[4..6] && r[12..14] == f[6..8];
    assert r[15..17] == f[9..11] && r[17..19] == f[11..13];
    assert r[19..21] == Digits(dt.second, 2);
  }

  /** A `last_used` stamp spells the second the URL was last used. */
  lemma HistoryStampFields(dt: DateTime)
    requires Valid(dt)
    ensures var r := HistoryStamp(dt);
            && DecimalValue(r[..4]) == dt.year
            && DecimalValue(r[5..7]) == dt.month
            && DecimalValue(r[8..10]) == dt.day
            && DecimalValue(r[11..13]) == dt.hour
            && DecimalValue(r[14..16]) == dt.minute
            && DecimalValue(r[17..]) == dt.second
  {
    var r := HistoryStamp(dt);
    assert Pow10(2) == 100 && Pow10(4) == 10000;
    assert r[..4] == Digits(dt.year, 4);
    assert r[5..7] == Digits(dt.month, 2);
    assert r[8..10] == Digits(dt.day, 2);
    DigitsValue(dt.year, 4);
    DigitsValue(dt.month, 2);
    DigitsValue(dt.day, 2);
    ClockFields(dt);
    assert r[11..13] == Digits(dt.hour, 2);
    assert r[14..16] == Digits(dt.minute, 2);
    assert r[17..] == Digits(dt.second, 2);
  }
}

=== FILE: rtmp_url.dfy ===
/**
  The two RTMP URL checks. Both accept `rtmp://`, a non-empty host of ASCII
  letters, digits, `-` and `.`, an optional `:` with one or more digits, and
  a path whose characters are the unreserved and reserved characters of
  sections 2.3 and 2.2 of RFC 3986 (no `%`, so percent-encoding is refused).
  The permissive check (used before a capture starts) makes the whole path
  optional and lets it be a bare `/`; the strict check (used by the HTTP
  front end) demands `/` and at least one more path character.

  Both are Python `re.match` patterns ending in `$`, which also matches just
  before one final newline; `MatchesPattern` keeps that.
 */
module RtmpUrl {

  datatype Strictness = Permissive | Strict

  const Scheme: string := "rtmp://"

  /** The three character classes of the patterns. */
  datatype CharClass = HostChars | PortDigits | PathChars

  predicate IsAsciiAlnum(c: char) {
    'a' <= c <= 'z' || 'A' <= c <= 'Z' || '0' <= c <= '9'
  }

  predicate InClass(c: char, k: CharClass) {
    match k
    case HostChars => IsAsciiAlnum(c) || c == '-' || c == '.'
    case PortDigits => '0' <= c <= '9'
    case PathChars => IsAsciiAlnum(c) || c in "-._~:/?#[]@!$&'()*+,;="
  }

  predicate AllIn(u: string, k: CharClass) {
    forall j :: 0 <= j < |u| ==> InClass(u[j], k)
  }

  // ---------------------------------------------------------------------
  // Reference definition: the language of each pattern, by decomposition.
  // ---------------------------------------------------------------------

  /** `(:[0-9]+)?` */
  predicate IsPortPart(u: string) {
    |u| == 0 || (|u| >= 2 && u[0] == ':' && AllIn(u[1..], PortDigits))
  }

  /** `(/[...]*)?` when permissive, `/[...]+` when strict. */
  predicate IsPathPart(u: string, mode: Strictness) {
    match mode
    case Permissive => |u| == 0 || (u[0] == '/' && AllIn(u[1..], PathChars))
    case Strict => |u| >= 2 && u[0] == '/' && AllIn(u[1..], PathChars)
  }

  /** `t` is scheme, host, port part and path part, in that order. */
  ghost predicate InGrammar(t: string, mode: Strictness) {
    && |Scheme| <= |t| && t[..|Scheme|] == Scheme
    && exists h, p :: |Scheme| < h <= p <= |t|
                      && AllIn(t[|Scheme|..h], HostChars)
                      && IsPortPart(t[h..p])
                      && IsPathPart(t[p..], mode)
  }

  /** `re.match(pattern, s)` succeeds: the grammar, optionally followed by one `\n` (Python's `$`). */
  ghost predicate MatchesPattern(s: string, mode: Strictness) {
    || InGrammar(s, mode)
    || (|s| > 0 && s[|s| - 1] == '\n' && InGrammar(s[..|s| - 1], mode))
  }

  // ---------------------------------------------------------------------
  // The recogniser: a left-to-right scan.
  // ---------------------------------------------------------------------

  /** The end of the longest run of class-`k` characters starting at `i`. */
  function Span(t: string, i: nat, k: CharClass): (r: nat)
    requires i <= |t|
    ensures i <= r <= |t|
    ensures forall j :: i <= j < r ==> InClass(t[j], k)
    ensures r < |t| ==> !InClass(t[r], k)
    decreases |t| - i
  {
    if i == |t| || !InClass(t[i], k) then i else Span(t, i + 1, k)
  }

  /** What may follow the host and port, from position `p` to the end. */
  predicate PathTail(t: string, p: nat, mode: Strictness)
    requires p <= |t|
  {
    if p == |t| then mode == Permissive
    else t[p] == '/' && Span(t, p + 1, PathChars) == |t| && (mode == Permissive || p + 1 < |t|)
  }

  predicate RecogniseBody(t: string, mode: Strictness) {
    if |t| < |Scheme| || t[..|Scheme|] != Scheme then false
    else
      var h := Span(t, |Scheme|, HostChars);
      if h == |Scheme| then false
      else if h < |t| && t[h] == ':' then
        var d := Span(t, h + 1, PortDigits);
        d > h + 1 && PathTail(t, d, mode)
      else PathTail(t, h, mode)
  }

  /** The URL check: `_is_valid_rtmp_url` when permissive, `is_valid_rtmp_url` when strict. */
  function IsValidRtmpUrl(s: string, mode: Strictness): (ok: bool)
    ensures ok <==> MatchesPattern(s, mode)
  {
    if |s| > 0 && s[|s| - 1] == '\n' then
      NoNewlineInGrammar(s, mode);
      RecogniseBodyCorrect(s[..|s| - 1], mode);
      RecogniseBody(s[..|s| - 1], mode)
    else
      RecogniseBodyCorrect(s, mode);
      RecogniseBody(s, mode)
  }

  // ---------------------------------------------------------------------
  // Correctness of the scan against the grammar.
  // ---------------------------------------------------------------------

  /** A run that stops at a character outside its class is the longest run. */
  lemma {:induction false} SpanUnique(t: string, i: nat, r: nat, k: CharClass)
    requires i <= r <= |t|
    requires forall j :: i <= j < r ==> InClass(t[j], k)
    requires r < |t| ==> !InClass(t[r], k)
    ensures Span(t, i, k) == r
    decreases r - i
  {
    if i < r {
      SpanUnique(t, i + 1, r, k);
    }
  }

  lemma AllInSlice(t: string, i: nat, r: nat, k: CharClass)
    requires i <= r <= |t|
    ensures AllIn(t[i..r], k) <==> forall j :: i <= j < r ==> InClass(t[j], k)
  {
    if forall j :: i <= j < r ==> InClass(t[j], k) {
      forall j | 0 <= j < r - i ensures InClass(t[i..r][j], k) {
        assert t[i..r][j] == t[i + j];
      }
    }
    if AllIn(t[i..r], k) {
      forall j | i <= j < r ensures InClass(t[j], k) {
        assert t[j] == t[i..r][j - i];
      }
    }
  }

  lemma PathTailMeansPathPart(t: string, p: nat, mode: Strictness)
    requires p <= |t|
    ensures PathTail(t, p, mode) <==> IsPathPart(t[p..], mode)
  {
    if p < |t| && t[p] == '/' {
      assert t[p..][1..] == t[p + 1..|t|];
      AllInSlice(t, p + 1, |t|, PathChars);
      if AllIn(t[p + 1..|t|], PathChars) {
        SpanUnique(t, p + 1, |t|, PathChars);
      }
    }
  }

  /** `(:[0-9]+)?` spans `t[h..p]` exactly when it is empty or a colon and digits. */
  lemma PortPartAt(t: string, h: nat, p: nat)
    requires h <= p <= |t|
    ensures IsPortPart(t[h..p]) <==>
      h == p || (h + 2 <= p && t[h] == ':' && forall j :: h + 1 <= j < p ==> InClass(t[j], PortDigits))
  {
    if h < p {
      assert t[h..p][0] == t[h];
      assert t[h..p][1..] == t[h + 1..p];
      AllInSlice(t, h + 1, p, PortDigits);
    }
  }

  lemma RecogniseSound(t: string, mode: Strictness)
    requires RecogniseBody(t, mode)
    ensures InGrammar(t, mode)
  {
    var n := |Scheme|;
    var h := Span(t, n, HostChars);
    AllInSlice(t, n, h, HostChars);
    if h < |t| && t[h] == ':' {
      var d := Span(t, h + 1, PortDigits);
      PathTailMeansPathPart(t, d, mode);
      PortPartAt(t, h, d);
      assert n < h <= d <= |t| && AllIn(t[n..h], HostChars) && IsPortPart(t[h..d]) && IsPathPart(t[d..], mode);
    } else {
      PathTailMeansPathPart(t, h, mode);
      PortPartAt(t, h, h);
      assert n < h <= h <= |t| && AllIn(t[n..h], HostChars) && IsPortPart(t[h..h]) && IsPathPart(t[h..], mode);
    }
  }

  lemma RecogniseComplete(t: string, mode: Strictness, h: nat, p: nat)
    requires |Scheme| <= |t| && t[..|Scheme|] == Scheme
    requires |Scheme| < h <= p <= |t|
    requires AllIn(t[|Scheme|..h], HostChars) && IsPortPart(t[h..p]) && IsPathPart(t[p..], mode)
    ensures RecogniseBody(t, mode)
  {
    var n := |Scheme|;
    AllInSlice(t, n, h, HostChars);
    PortPartAt(t, h, p);
    PathTailMeansPathPart(t, p, mode);
    if p < |t| {
      assert t[p] == t[p..][0] == '/';
    }
    SpanUnique(t, n, h, HostChars);
    if h < p {
      SpanUnique(t, h + 1, p, PortDigits);
    }
  }

  lemma RecogniseBodyCorrect(t: string, mode: Strictness)
    ensures RecogniseBody(t, mode) <==> InGrammar(t, mode)
  {
    if RecogniseBody(t, mode) {
      RecogniseSound(t, mode);
    }
    if InGrammar(t, mode) {
      var n := |Scheme|;
      var h, p :| n < h <= p <= |t|
                  && AllIn(t[n..h], HostChars)
                  && IsPortPart(t[h..p])
                  && IsPathPart(t[p..], mode);
      RecogniseComplete(t, mode, h, p);
    }
  }

  lemma ClassExcludesNewline(c: char, k: CharClass)
    requires InClass(c, k)
    ensures c != '\n'
  {
  }

  /** No character class holds `\n`, so a grammatical string never contains one. */
  lemma GrammarHasNoNewline(t: string, mode: Strictness)
    requires InGrammar(t, mode)
    ensures forall j :: 0 <= j < |t| ==> t[j] != '\n'
  {
    var n := |Scheme|;
    var h, p :| n < h <= p <= |t|
                && AllIn(t[n..h], HostChars)
                && IsPortPart(t[h..p])
                && IsPathPart(t[p..], mode);
    AllInSlice(t, n, h, HostChars);
    PortPartAt(t, h, p);
    if p < |t| {
      assert t[p] == t[p..][0] == '/';
      assert t[p..][1..] == t[p + 1..|t|];
      AllInSlice(t, p + 1, |t|, PathChars);
    }
    forall j | 0 <= j < |t|
      ensures t[j] != '\n'
    {
      if j < n {
        assert t[j] == t[..n][j] == Scheme[j];
      } else if j < h {
        ClassExcludesNewline(t[j], HostChars);
      } else if j == h && h < p {
      } else if j < p {
        ClassExcludesNewline(t[j], PortDigits);
      } else if j > p {
        ClassExcludesNewline(t[j], PathChars);
      }
    }
  }

  lemma NoNewlineInGrammar(s: string, mode: Strictness)
    requires |s| > 0 && s[|s| - 1] == '\n'
    ensures !InGrammar(s, mode)
  {
    if InGrammar(s, mode) {
      GrammarHasNoNewline(s, mode);
    }
  }

  // ---------------------------------------------------------------------
  // Properties of the two checks.
  // ---------------------------------------------------------------------

  lemma StrictPathIsPermissivePath(u: string)
    requires IsPathPart(u, Strict)
    ensures IsPathPart(u, Permissive)
  {
  }

  /** Every URL the HTTP front end accepts is also accepted when a capture starts. */
  lemma StrictImpliesPermissive(s: string)
    ensures IsValidRtmpUrl(s, Strict) ==> IsValidRtmpUrl(s, Permissive)
  {
    var n := |Scheme|;
    var t := if |s| > 0 && s[|s| - 1] == '\n' then s[..|s| - 1] else s;
    if InGrammar(t, Strict) {
      var h, p :| n < h <= p <= |t|
                  && AllIn(t[n..h], HostChars)
                  && IsPortPart(t[h..p])
                  && IsPathPart(t[p..], Strict);
      StrictPathIsPermissivePath(t[p..]);
      assert InGrammar(t, Permissive);
    }
    if IsValidRtmpUrl(s, Strict) && !(|s| > 0 && s[|s| - 1] == '\n') {
      assert InGrammar(s, Strict);
    }
  }

  /** Python's `$` also matches before one final newline: appending it changes nothing. */
  lemma TrailingNewlineIgnored(s: string, mode: Strictness)
    requires forall j :: 0 <= j < |s| ==> s[j] != '\n'
    ensures IsValidRtmpUrl(s + "\n", mode) <==> IsValidRtmpUrl(s, mode)
  {
    var s' := s + "\n";
    assert s'[..|s'| - 1] == s;
    if |s| > 0 {
      assert s[|s| - 1] != '\n';
    }
  }

  /** Host alone, host and port, and host with a bare `/` pass the permissive check. */
  lemma PermissiveAccepts()
    ensures IsValidRtmpUrl("rtmp://h", Permissive)
    ensures IsValidRtmpUrl("rtmp://h:1935", Permissive)
    ensures IsValidRtmpUrl("rtmp://h/", Permissive)
  {
    var a, b, c := "rtmp://h", "rtmp://h:1935", "rtmp://h/";
    assert a[..7] == b[..7] == c[..7] == Scheme;
    assert Span(a, 7, HostChars) == 8;
    assert Span(b, 7, HostChars) == 8 && Span(b, 9, PortDigits) == 13;
    assert Span(c, 7, HostChars) == 8 && Span(c, 9, PathChars) == 9;
  }

  /** A colon without digits, a non-numeric port, another scheme and the empty string fail it. */
  lemma PermissiveRejects()
    ensures !IsValidRtmpUrl("rtmp://h:", Permissive)
    ensures !IsValidRtmpUrl("rtmp://h:ab/x", Permissive)
    ensures !IsValidRtmpUrl("http://h/x", Permissive)
    ensures !IsValidRtmpUrl("", Permissive)
  {
    var d, e := "rtmp://h:", "rtmp://h:ab/x";
    assert d[..7] == e[..7] == Scheme;
    assert Span(d, 7, HostChars) == 8 && Span(d, 9, PortDigits) == 9;
    assert Span(e, 7, HostChars) == 8 && Span(e, 9, PortDigits) == 9;
    assert "http://h/x"[..7][0] != Scheme[0];
  }

  /** A path of at least one character after `/` passes the strict check. */
  lemma StrictAcceptsPath()
    ensures IsValidRtmpUrl("rtmp://h/live", Strict)
  {
    var a := "rtmp://h/live";
    assert a[..7] == Scheme;
    assert Span(a, 7, HostChars) == 8 && Span(a, 9, PathChars) == 13;
  }

  /** So does a URL with a port before its path. */
  lemma StrictAcceptsPortAndPath()
    ensures IsValidRtmpUrl("rtmp://h:1/x", Strict)
  {
    var b := "rtmp://h:1/x";
    assert b[..7] == Scheme;
    assert Span(b, 7, HostChars) == 8 && Span(b, 9, PortDigits) == 10 && Span(b, 11, PathChars) == 12;
    assert RecogniseBody(b, Strict);
  }

  /** Without a non-empty path the strict check fails. */
  lemma StrictRejectsMissingPath()
    ensures !IsValidRtmpUrl("rtmp://h", Strict)
    ensures !IsValidRtmpUrl("rtmp://h:1935", Strict)
    ensures !IsValidRtmpUrl("rtmp://h/", Strict)
    ensures !IsValidRtmpUrl("", Strict)
  {
    var b, c, d := "rtmp://h", "rtmp://h:1935", "rtmp://h/";
    assert b[..7] == c[..7] == d[..7] == Scheme;
    assert Span(b, 7, HostChars) == 8;
    assert Span(c, 7, HostChars) == 8 && Span(c, 9, PortDigits) == 13;
    assert Span(d, 7, HostChars) == 8;
  }

  /** A port marker with no digits, or with letters, fails the strict check. */
  lemma StrictRejectsBadPort()
    ensures !IsValidRtmpUrl("rtmp://h:/x", Strict)
    ensures !IsValidRtmpUrl("rtmp://h:ab/x", Strict)
  {
    var e, f := "rtmp://h:/x", "rtmp://h:ab/x";
    assert e[..7] == f[..7] == Scheme;
    assert Span(e, 7, HostChars) == 8 && Span(e, 9, PortDigits) == 9;
    assert Span(f, 7, HostChars) == 8 && Span(f, 9, PortDigits) == 9;
  }
}

=== FILE: session.dfy ===
/**
  The stream manager's session slot: `start_capture` and
  `stop_capture_stream` over "a stream is held or not", the stop flag and
  the history, and the capture thread's exit, which frees the slot.
 */
module Session {
  import opened Wrappers
  import Names
  import RtmpUrl
  import History
  import CaptureLoop

  /** `current_stream is not None`, the stop event, and the URL history. */
  datatype Manager = Manager(streamHeld: bool, stopRequested: bool, history: seq<History.HistoryEntry>)

  datatype StartError = AlreadyCapturing | InvalidUrl | FolderCreationFailed | OpenFailed

  /** What the environment decides while `start_capture` runs. */
  datatype StartEnv = StartEnv(
    folderTime: Names.DateTime,   // `datetime.now()` inside `create_folder`
    folderCreated: bool,          // `makedirs` did not raise
    historyTime: Names.DateTime,  // `datetime.now()` inside `add_to_history`
    streamOpened: bool)           // `isOpened()` on the new capture

  datatype StartResult = StartResult(manager: Manager, events: seq<CaptureLoop.Event>, outcome: Result<string, StartError>)

  /**
    `start_capture`. The slot check raises before anything else; the URL
    check before any folder or history change; an open failure only after
    the first folder was made, announced and the URL recorded.
   */
  function StartCapture(m: Manager, url: string, env: StartEnv): (r: StartResult)
    ensures r.outcome.Ok? <==> !m.streamHeld && RtmpUrl.IsValidRtmpUrl(url, RtmpUrl.Permissive)
                               && env.folderCreated && env.streamOpened
    ensures r.manager.streamHeld <==> m.streamHeld || r.outcome.Ok?
    ensures r.outcome.Ok? ==> !r.manager.stopRequested && r.events == [CaptureLoop.NewFolder(r.outcome.value)]
    ensures r.outcome.Ok? ==> r.manager.history == History.AddToHistory(m.history, url, Names.HistoryStamp(env.historyTime))
    ensures !m.streamHeld && RtmpUrl.IsValidRtmpUrl(url, RtmpUrl.Permissive) && !env.folderCreated ==>
              r == StartResult(m, [], Err(FolderCreationFailed))
    ensures r.outcome == Err(OpenFailed) ==>
              r.manager == m.(history := History.AddToHistory(m.history, url, Names.HistoryStamp(env.historyTime)))
  {
    if m.streamHeld then StartResult(m, [], Err(AlreadyCapturing))
    else if !RtmpUrl.IsValidRtmpUrl(url, RtmpUrl.Permissive) then StartResult(m, [], Err(InvalidUrl))
    else if !env.folderCreated then StartResult(m, [], Err(FolderCreationFailed))
    else
      var folder := Names.FolderName(env.folderTime);
      var history := History.AddToHistory(m.history, url, Names.HistoryStamp(env.historyTime));
      var events := [CaptureLoop.NewFolder(folder)];
      if !env.streamOpened then StartResult(m.(history := history), events, Err(OpenFailed))
      else StartResult(Manager(true, false, history), events, Ok(folder))
  }

  /** `stop_capture_stream`: raise the stop flag and drop the stream, if any. */
  function StopCapture(m: Manager): (r: Manager)
    ensures r.stopRequested && !r.streamHeld && r.history == m.history
  {
    m.(stopRequested := true, streamHeld := false)
  }

  /**
    One loop iteration seen from the manager: the loop reads the manager's
    stop flag at the top, and on leaving the `finally` clause drops the stream.
    A loop that has already left does nothing more, so it leaves the slot alone.
   */
  function Iterate(m: Manager, st: CaptureLoop.LoopState, ob: CaptureLoop.Observation): (r: (Manager, CaptureLoop.StepResult))
    ensures r.1.state.stopped <==> st.stopped || m.stopRequested
    ensures r.0.history == m.history && r.0.stopRequested == m.stopRequested
    ensures st.stopped ==> r.0 == m && r.1.events == []
    ensures !st.stopped && r.1.state.stopped ==> !r.0.streamHeld
    ensures !r.1.state.stopped ==> r.0 == m
  {
    var step := CaptureLoop.Step(st, ob.(stopRequested := m.stopRequested));
    if !st.stopped && step.state.stopped then (m.(streamHeld := false), step) else (m, step)
  }

  /** The loop's passes one after another, seen from the manager. */
  function Serve(m: Manager, st: CaptureLoop.LoopState, obs: seq<CaptureLoop.Observation>): (r: (Manager, CaptureLoop.StepResult))
    ensures r.0.history == m.history && r.0.stopRequested == m.stopRequested
    ensures r.1.state.stopped <==> st.stopped || (m.stopRequested && |obs| > 0)
    decreases |obs|
  {
    if |obs| == 0 then (m, CaptureLoop.StepResult(st, []))
    else
      var first := Iterate(m, st, obs[0]);
      var rest := Serve(first.0, first.1.state, obs[1..]);
      (rest.0, CaptureLoop.StepResult(rest.1.state, first.1.events + rest.1.events))
  }

  /** The observations as the loop sees them while the manager's stop flag is `stop`. */
  function Seen(obs: seq<CaptureLoop.Observation>, stop: bool): (r: seq<CaptureLoop.Observation>)
    ensures |r| == |obs|
    ensures forall i :: 0 <= i < |obs| ==> r[i] == obs[i].(stopRequested := stop)
  {
    seq(|obs|, i requires 0 <= i < |obs| => obs[i].(stopRequested := stop))
  }

  /**
    The manager's view of the loop is the loop itself: its passes are the
    capture loop's steps, in order, over what the loop observes.
   */
  lemma {:induction false} ServeIsRun(m: Manager, st: CaptureLoop.LoopState, obs: seq<CaptureLoop.Observation>)
    ensures Serve(m, st, obs).1 == CaptureLoop.Run(st, Seen(obs, m.stopRequested))
    decreases |obs|
  {
    if |obs| > 0 {
      var first := Iterate(m, st, obs[0]);
      ServeIsRun(first.0, first.1.state, obs[1..]);
      assert Seen(obs, m.stopRequested)[1..] == Seen(obs[1..], m.stopRequested);
    }
  }

  // ---------------------------------------------------------------------
  // Laws of the slot.
  // ---------------------------------------------------------------------

  /** A second start while a stream is held raises and changes nothing. */
  lemma StartWhileHeld(m: Manager, url: string, env: StartEnv)
    requires m.streamHeld
    ensures StartCapture(m, url, env) == StartResult(m, [], Err(AlreadyCapturing))
  {
  }

  /** An invalid URL is refused before any folder, callback or history change. */
  lemma InvalidUrlNoSideEffects(m: Manager, url: string, env: StartEnv)
    requires !m.streamHeld && !RtmpUrl.IsValidRtmpUrl(url, RtmpUrl.Permissive)
    ensures StartCapture(m, url, env) == StartResult(m, [], Err(InvalidUrl))
  {
  }

  /**
    A stream that will not open fails the start only after the folder was
    created and announced and the URL recorded; the slot stays free.
   */
  lemma OpenFailureAfterSideEffects(m: Manager, url: string, env: StartEnv)
    requires !m.streamHeld && env.folderCreated && !env.streamOpened
    ensures var r := StartCapture(m, url, env);
            RtmpUrl.IsValidRtmpUrl(url, RtmpUrl.Permissive) ==>
            && r.outcome == Err(OpenFailed)
            && !r.manager.streamHeld
            && r.events == [CaptureLoop.NewFolder(Names.FolderName(env.folderTime))]
            && History.HasUrl(r.manager.history, url)
  {
    History.AddRecordsUse(m.history, url, Names.HistoryStamp(env.historyTime));
  }

  /** Stopping twice is stopping once, and stopping with no stream is harmless. */
  lemma StopIdempotent(m: Manager)
    ensures StopCapture(StopCapture(m)) == StopCapture(m)
    ensures !m.streamHeld ==> StopCapture(m) == m.(stopRequested := true)
  {
  }

  /** After a stop the next start gets past the slot check, and clears the stop flag when it succeeds. */
  lemma StartAfterStop(m: Manager, url: string, env: StartEnv)
    ensures var r := StartCapture(StopCapture(m), url, env);
            && r.outcome != Err(AlreadyCapturing)
            && (r.outcome.Ok? ==> !r.manager.stopRequested)
  {
  }

  /** The loop of a started session runs on despite failures until a stop, then frees the slot. */
  lemma StopEndsLoop(m: Manager, st: CaptureLoop.LoopState, ob: CaptureLoop.Observation)
    requires !st.stopped
    ensures !m.stopRequested ==> !Iterate(m, st, ob).1.state.stopped
    ensures var r := Iterate(StopCapture(m), st, ob);
            r.1.state.stopped && r.1.events == [] && !r.0.streamHeld
  {
  }

  /** A successful start announces its folder before the loop can save any frame into it. */
  lemma FirstEventIsNewFolder(m: Manager, url: string, env: StartEnv, now: int, obs: seq<CaptureLoop.Observation>)
    ensures var r := StartCapture(m, url, env);
            r.outcome.Ok? ==>
              var events := r.events + CaptureLoop.Run(CaptureLoop.Initial(r.outcome.value, now), obs).events;
              events[0] == CaptureLoop.NewFolder(Names.FolderName(env.folderTime))
  {
  }

  // ---------------------------------------------------------------------
  // Traces of starts and stops.
  // ---------------------------------------------------------------------

  datatype Op = StartOp(url: string, env: StartEnv) | StopOp

  function Apply(m: Manager, op: Op): Manager {
    match op
    case StartOp(url, env) => StartCapture(m, url, env).manager
    case StopOp => StopCapture(m)
  }

  predicate Succeeds(m: Manager, op: Op) {
    op.StartOp? && StartCapture(m, op.url, op.env).outcome.Ok?
  }

  /** The manager after each operation, and how many starts succeeded and how many stops freed a stream. */
  function Replay(m: Manager, ops: seq<Op>): (r: (Manager, nat, nat))
    ensures r.1 + (if m.streamHeld then 1 else 0) == r.2 + (if r.0.streamHeld then 1 else 0)
    decreases |ops|
  {
    if |ops| == 0 then (m, 0, 0)
    else
      var m' := Apply(m, ops[0]);
      var rest := Replay(m', ops[1..]);
      var started := if Succeeds(m, ops[0]) then 1 else 0;
      var freed := if ops[0].StopOp? && m.streamHeld then 1 else 0;
      (rest.0, rest.1 + started, rest.2 + freed)
  }

  /** While a stream is held and no stop comes, every start fails and the stream stays held. */
  lemma {:induction false} NoSecondSession(m: Manager, ops: seq<Op>)
    requires m.streamHeld
    requires forall i :: 0 <= i < |ops| ==> ops[i].StartOp?
    ensures Replay(m, ops).0.streamHeld && Replay(m, ops).1 == 0
    decreases |ops|
  {
    if |ops| > 0 {
      assert ops[0].StartOp?;
      StartWhileHeld(m, ops[0].url, ops[0].env);
      assert forall i :: 0 <= i < |ops[1..]| ==> ops[1..][i] == ops[i + 1];
      NoSecondSession(Apply(m, ops[0]), ops[1..]);
    }
  }

  /**
    While no stop is requested the loop never gives up the slot, however
    many passes it makes and whatever fails in them.
   */
  lemma {:induction false} ServeKeepsSlot(m: Manager, st: CaptureLoop.LoopState, obs: seq<CaptureLoop.Observation>)
    requires !m.stopRequested && !st.stopped
    ensures Serve(m, st, obs).0 == m && !Serve(m, st, obs).1.state.stopped
    decreases |obs|
  {
    if |obs| > 0 {
      var first := Iterate(m, st, obs[0]);
      ServeKeepsSlot(first.0, first.1.state, obs[1..]);
    }
  }

  /**
    A started session holds the one stream through any number of stop-free
    loop passes, so every further start is refused by the slot check.
   */
  lemma SessionKeepsSlot(m: Manager, url: string, env: StartEnv, now: int,
                         obs: seq<CaptureLoop.Observation>, url': string, env': StartEnv)
    ensures var r := StartCapture(m, url, env);
            r.outcome.Ok? ==>
              var s := Serve(r.manager, CaptureLoop.Initial(r.outcome.value, now), obs).0;
              s.streamHeld && StartCapture(s, url', env').outcome == Err(AlreadyCapturing)
  {
    var r := StartCapture(m, url, env);
    if r.outcome.Ok? {
      ServeKeepsSlot(r.manager, CaptureLoop.Initial(r.outcome.value, now), obs);
    }
  }
}

=== FILE: sorting.dfy ===
/**
  Python's `sorted(xs, key=..., reverse=...)` over string keys: a stable
  sort, so elements with equal keys keep their original relative order, in
  both directions.
 */
module Sorting {
  import opened Text

  /** An element keyed `a` may stand before one keyed `b`: `a <= b`, or `a >= b` when `desc`. */
  predicate KeyOrder(a: string, b: string, desc: bool) {
    if desc then !LexLess(a, b) else !LexLess(b, a)
  }

  lemma KeyOrderReflexive(a: string, desc: bool)
    ensures KeyOrder(a, a, desc)
  {
    LexLessIrreflexive(a);
  }

  lemma KeyOrderTotal(a: string, b: string, desc: bool)
    ensures KeyOrder(a, b, desc) || KeyOrder(b, a, desc)
  {
    LexLessTotal(a, b);
    if a == b {
      LexLessIrreflexive(a);
    } else if LexLess(a, b) {
      LexLessAsymmetric(a, b);
    } else {
      LexLessAsymmetric(b, a);
    }
  }

  lemma KeyOrderTransitive(a: string, b: string, c: string, desc: bool)
    requires KeyOrder(a, b, desc) && KeyOrder(b, c, desc)
    ensures KeyOrder(a, c, desc)
  {
    LexLessTotal(a, b);
    LexLessTotal(b, c);
    LexLessTotal(a, c);
    if LexLess(a, b) && LexLess(b, c) {
      LexLessTransitive(a, b, c);
      LexLessAsymmetric(a, c);
    } else if LexLess(b, a) && LexLess(c, b) {
      LexLessTransitive(c, b, a);
      LexLessAsymmetric(c, a);
    }
  }

  ghost predicate SortedBy<T>(xs: seq<T>, key: T -> string, desc: bool) {
    forall i, j :: 0 <= i < j < |xs| ==> KeyOrder(key(xs[i]), key(xs[j]), desc)
  }

  /** The elements of `xs` whose key is `k`, in their order in `xs`. */
  function WithKey<T>(xs: seq<T>, key: T -> string, k: string): seq<T> {
    if |xs| == 0 then []
    else (if key(xs[0]) == k then [xs[0]] else []) + WithKey(xs[1..], key, k)
  }

  /**
    Inserts `x` before the first element it may precede, so it lands after
    every element that must come before it and before every equal key.
   */
  function Insert<T>(x: T, xs: seq<T>, key: T -> string, desc: bool): (r: seq<T>)
    ensures multiset(r) == multiset(xs) + multiset{x}
    ensures |r| == |xs| + 1
  {
    if |xs| == 0 then [x]
    else if KeyOrder(key(x), key(xs[0]), desc) then [x] + xs
    else
      assert xs == [xs[0]] + xs[1..];
      [xs[0]] + Insert(x, xs[1..], key, desc)
  }

  /** Putting in front an element that may precede every other keeps a list sorted. */
  lemma ConsSorted<T>(y: T, xs: seq<T>, key: T -> string, desc: bool)
    requires SortedBy(xs, key, desc)
    requires forall j :: 0 <= j < |xs| ==> KeyOrder(key(y), key(xs[j]), desc)
    ensures SortedBy([y] + xs, key, desc)
  {
    var r := [y] + xs;
    forall i, j | 0 <= i < j < |r|
      ensures KeyOrder(key(r[i]), key(r[j]), desc)
    {
      assert r[j] == xs[j - 1];
      if i > 0 {
        assert r[i] == xs[i - 1];
      }
    }
  }

  lemma InsertMember<T>(x: T, xs: seq<T>, key: T -> string, desc: bool, j: int)
    requires 0 <= j < |Insert(x, xs, key, desc)|
    ensures var y := Insert(x, xs, key, desc)[j]; y == x || y in xs
  {
    var r := Insert(x, xs, key, desc);
    assert r[j] in multiset(r);
  }

  lemma {:induction false} InsertSorted<T>(x: T, xs: seq<T>, key: T -> string, desc: bool)
    requires SortedBy(xs, key, desc)
    ensures SortedBy(Insert(x, xs, key, desc), key, desc)
    decreases |xs|
  {
    if |xs| == 0 {
      assert SortedBy([x], key, desc);
    } else if KeyOrder(key(x), key(xs[0]), desc) {
      forall j | 0 <= j < |xs|
        ensures KeyOrder(key(x), key(xs[j]), desc)
      {
        if j > 0 {
          KeyOrderTransitive(key(x), key(xs[0]), key(xs[j]), desc);
        }
      }
      ConsSorted(x, xs, key, desc);
    } else {
      KeyOrderTotal(key(x), key(xs[0]), desc);
      InsertSorted(x, xs[1..], key, desc);
      var tail := Insert(x, xs[1..], key, desc);
      forall j | 0 <= j < |tail|
        ensures KeyOrder(key(xs[0]), key(tail[j]), desc)
      {
        InsertMember(x, xs[1..], key, desc, j);
        if tail[j] != x {
          var k :| 0 <= k < |xs[1..]| && xs[1..][k] == tail[j];
          assert xs[k + 1] == tail[j];
        }
      }
      ConsSorted(xs[0], tail, key, desc);
    }
  }

  lemma WithKeyCons<T>(x: T, xs: seq<T>, key: T -> string, k: string)
    ensures WithKey([x] + xs, key, k) == (if key(x) == k then [x] else []) + WithKey(xs, key, k)
  {
    assert ([x] + xs)[0] == x && ([x] + xs)[1..] == xs;
  }

  lemma InsertSkips<T>(x: T, xs: seq<T>, key: T -> string, desc: bool)
    requires |xs| > 0 && !KeyOrder(key(x), key(xs[0]), desc)
    ensures Insert(x, xs, key, desc) == [xs[0]] + Insert(x, xs[1..], key, desc)
  {
  }

  /** An element with a different key from `x` is skipped over only if it must precede `x`. */
  lemma {:induction false} InsertWithKey<T>(x: T, xs: seq<T>, key: T -> string, desc: bool, k: string)
    ensures WithKey(Insert(x, xs, key, desc), key, k)
         == (if key(x) == k then [x] else []) + WithKey(xs, key, k)
    decreases |xs|
  {
    var mine := if key(x) == k then [x] else [];
    if |xs| == 0 {
      WithKeyCons(x, [], key, k);
      assert [x] + [] == [x];
    } else if KeyOrder(key(x), key(xs[0]), desc) {
      WithKeyCons(x, xs, key, k);
    } else {
      var head := xs[0];
      var rest := xs[1..];
      var tail := Insert(x, rest, key, desc);
      InsertSkips(x, xs, key, desc);
      InsertWithKey(x, rest, key, desc, k);
      assert WithKey(tail, key, k) == mine + WithKey(rest, key, k);
      WithKeyCons(head, tail, key, k);
      assert xs == [head] + rest;
      WithKeyCons(head, rest, key, k);
      var theirs := if key(head) == k then [head] else [];
      assert WithKey(xs, key, k) == theirs + WithKey(rest, key, k);
      assert WithKey(Insert(x, xs, key, desc), key, k) == theirs + (mine + WithKey(rest, key, k));
      if key(x) == k {
        KeyOrderReflexive(key(x), desc);
        assert theirs == [];
      } else {
        assert mine == [];
      }
    }
  }

  /** `sorted(xs, key=key, reverse=desc)`. */
  function SortByKey<T>(xs: seq<T>, key: T -> string, desc: bool): (r: seq<T>)
    ensures multiset(r) == multiset(xs)
    ensures |r| == |xs|
    decreases |xs|
  {
    if |xs| == 0 then []
    else
      assert xs == [xs[0]] + xs[1..];
      Insert(xs[0], SortByKey(xs[1..], key, desc), key, desc)
  }

  /** `sorted` returns its elements in key order. */
  lemma {:induction false} SortByKeySorted<T>(xs: seq<T>, key: T -> string, desc: bool)
    ensures SortedBy(SortByKey(xs, key, desc), key, desc)
    decreases |xs|
  {
    if |xs| > 0 {
      SortByKeySorted(xs[1..], key, desc);
      InsertSorted(xs[0], SortByKey(xs[1..], key, desc), key, desc);
    }
  }

  /** Stability: for every key, the elements carrying it keep their original order. */
  lemma {:induction false} SortByKeyStable<T>(xs: seq<T>, key: T -> string, desc: bool, k: string)
    ensures WithKey(SortByKey(xs, key, desc), key, k) == WithKey(xs, key, k)
    decreases |xs|
  {
    if |xs| > 0 {
      SortByKeyStable(xs[1..], key, desc, k);
      InsertWithKey(xs[0], SortByKey(xs[1..], key, desc), key, desc, k);
    }
  }
}

=== FILE: text.dfy ===
/**
  String helpers with Python's semantics: `<` on `str` (lexicographic by code
  point, a proper prefix first), `str.endswith` and `str.lower` restricted to
  ASCII letters.
 */
module Text {

  /** Python's `a < b` on two strings. */
  predicate LexLess(a: string, b: string)
    decreases |a|
  {
    if |a| == 0 then |b| > 0
    else if |b| == 0 then false
    else if a[0] != b[0] then a[0] < b[0]
    else LexLess(a[1..], b[1..])
  }

  lemma {:induction false} LexLessIrreflexive(a: string)
    ensures !LexLess(a, a)
    decreases |a|
  {
    if |a| > 0 {
      LexLessIrreflexive(a[1..]);
    }
  }

  lemma {:induction false} LexLessTransitive(a: string, b: string, c: string)
    requires LexLess(a, b) && LexLess(b, c)
    ensures LexLess(a, c)
    decreases |a|
  {
    if |a| > 0 && a[0] == b[0] && b[0] == c[0] {
      LexLessTransitive(a[1..], b[1..], c[1..]);
    }
  }

  /** Any two distinct strings are ordered one way or the other. */
  lemma {:induction false} LexLessTotal(a: string, b: string)
    ensures a == b || LexLess(a, b) || LexLess(b, a)
    decreases |a|
  {
    if |a| > 0 && |b| > 0 && a[0] == b[0] {
      LexLessTotal(a[1..], b[1..]);
      if a[1..] == b[1..] {
        assert a == [a[0]] + a[1..] && b == [b[0]] + b[1..];
      }
    }
  }

  lemma LexLessAsymmetric(a: string, b: string)
    requires LexLess(a, b)
    ensures !LexLess(b, a)
  {
    if LexLess(b, a) {
      LexLessTransitive(a, b, a);
      LexLessIrreflexive(a);
    }
  }

  /**
    Comparing two concatenations whose first parts have the same length
    compares the first parts, and the second parts only on a tie.
   */
  lemma {:induction false} LexLessAppend(a1: string, a2: string, b1: string, b2: string)
    requires |a1| == |b1|
    ensures LexLess(a1 + a2, b1 + b2) <==> LexLess(a1, b1) || (a1 == b1 && LexLess(a2, b2))
    ensures a1 + a2 == b1 + b2 <==> a1 == b1 && a2 == b2
    decreases |a1|
  {
    if a1 + a2 == b1 + b2 {
      assert a1 == (a1 + a2)[..|a1|] && b1 == (b1 + b2)[..|b1|];
      assert a2 == (a1 + a2)[|a1|..] && b2 == (b1 + b2)[|b1|..];
    }
    if |a1| > 0 {
      assert (a1 + a2)[1..] == a1[1..] + a2;
      assert (b1 + b2)[1..] == b1[1..] + b2;
      LexLessAppend(a1[1..], a2, b1[1..], b2);
      if a1[0] == b1[0] && a1[1..] == b1[1..] {
        assert a1 == [a1[0]] + a1[1..] && b1 == [b1[0]] + b1[1..];
      }
      if a1 == b1 {
        LexLessIrreflexive(a1);
      }
    } else {
      assert a1 + a2 == a2 && b1 + b2 == b2;
    }
  }

  /** Python's `s.endswith(suffix)`. */
  predicate EndsWith(s: string, suffix: string) {
    |suffix| <= |s| && s[|s| - |suffix|..] == suffix
  }

  predicate IsUpper(c: char) {
    'A' <= c <= 'Z'
  }

  /** `str.lower()` on one character, ASCII letters only. */
  function LowerChar(c: char): (r: char)
    ensures IsUpper(c) ==> r as int == c as int + 32
    ensures !IsUpper(c) ==> r == c
  {
    if IsUpper(c) then (c as int + 32) as char else c
  }

  /** `str.lower()`, with case mapping restricted to ASCII letters. */
  function Lower(s: string): (r: string)
    ensures |r| == |s|
    ensures forall i :: 0 <= i < |s| ==> r[i] == LowerChar(s[i])
  {
    seq(|s|, i requires 0 <= i < |s| => LowerChar(s[i]))
  }

  /** A suffix without upper-case letters survives lower-casing. */
  lemma LowerKeepsLowerSuffix(s: string, suffix: string)
    requires forall i :: 0 <= i < |suffix| ==> !IsUpper(suffix[i])
    requires EndsWith(s, suffix)
    ensures EndsWith(Lower(s), suffix)
  {
    var k := |s| - |suffix|;
    forall i | 0 <= i < |suffix|
      ensures Lower(s)[k..][i] == suffix[i]
    {
      assert s[k + i] == suffix[i];
    }
  }
}

=== FILE: wrappers.dfy ===
/** Small failure-carrying datatypes shared by the other modules. */
module Wrappers {

  /** A value that may be absent (a missing directory, a URL not in the history). */
  datatype Option<+T> = None | Some(value: T)

  /** The outcome of an operation that raises in the source: a value or an error kind. */
  datatype Result<+T, +E> = Ok(value: T) | Err(error: E)
}
